=== FILE: README.md ===
# TaskFlow front end, modelled in Dafny

TaskFlow is a small task manager: a Spring Boot backend that stores task
lists and their tasks, and a browser front end of two pages. This project
models the front end's logic.

- **The API client.** It builds requests from domain calls. List calls go
  under `/api/task-lists` and task calls under `/task-lists/{id}/tasks`.
  Before sending, it normalises descriptions and due dates. It then turns
  an HTTP status and JSON body into a value or an error message.
- **The shared UI helpers.** These are the priority and status labels, the
  `day/month/year` due-date tag, the modal overlays with their scroll lock,
  the loading bar and the toasts.
- **The lists page.** It shows the count label, the empty state and one
  card per list. After each successful create, edit or delete it reloads
  the whole array from the server.
- **The tasks page.** It boots from the URL and applies the ALL/OPEN/CLOSED
  filter. The stats chips are counted over the whole array. The status
  toggle is optimistic and rolls back on failure. The create, edit and
  delete flows patch the array in place.

Pages are modelled as pure functions. A function takes the page state, the
form inputs and the server's reply, and returns an `Effect`: the new state,
the requests sent and the toasts shown. JavaScript values that may be
`undefined`, `null` or a string are modelled by `JsText.JsStr`, and `||`
follows JavaScript truthiness. `Array.filter` is `Seqs.Keep`. The
`escHtml`/`escAttr` pair appears in both pages' sources; the model
defines it once, in `Escaping`, together with the decoding an HTML parser
applies to element text and attribute values, and a model of how a script
reads a single-quoted string literal.

Modules:
- `Base` holds `Option` and `Result`.
- `JsText` holds strings, split/join, trim and decimals.
- `Seqs` holds filter, find-index and subsequence.
- `Escaping`, `Api` and `Ui` model the shared code.
- `Entities` holds `Task`, `TaskList` and the status constants.
- `ListsPage` models `index.js` and `TasksPage` models `tasks.js`.

The failure branch of `toggleTask` carries the comment `// revert`
(tasks.js:169), but the status it sets is the flip of the status it tried
to send, not a saved copy of the prior one. The two agree when the prior
status is OPEN or CLOSED; for any other status the "revert" gives CLOSED.
The model follows the code, and `TasksPage.ToggleSettles` states both
cases.

The delete buttons pass the title through `escAttr` into a double-quoted
`onclick` attribute. An HTML parser decodes the attribute before the
handler's script is compiled, so the escaping does not protect the
script; see "## Findings". `ListsPage.CardOf` and `TasksPage.ItemOf` model
the code as written, with `escAttr`. `ListsPage.CorrectedCardOf` and
`TasksPage.CorrectedItemOf` are the same views with the corrected escape
`Escaping.EscScript`.

## Model

| member | source | states |
|---|---|---|
| JsText.OrNull | src/main/resources/static/js/api.js:45 | the `or null` fallback keeps a truthy string and turns every falsy value into `null` |
| JsText.OrUndefined | src/main/resources/static/js/index.js:132 | the `or undefined` fallback drops the key exactly when the trimmed text is empty, and otherwise sends exactly that text |
| JsText.Split | src/main/resources/static/js/ui.js:81-82 | `split` yields at least one piece, no piece contains the separator, and joining the pieces restores the input |
| JsText.SplitJoin | src/main/resources/static/js/ui.js:82 | splitting a join of separator-free pieces gives back exactly those pieces |
| JsText.LastPiece | src/main/resources/static/js/tasks.js:15 | `split('/').pop()` never contains a `/` |
| JsText.LastPieceAfterSeparator | src/main/resources/static/js/tasks.js:15 | everything up to the last separator does not affect the last piece |
| JsText.Trim | src/main/resources/static/js/index.js:115-116 | `trim()` is a contiguous slice of the input with only whitespace before and after it; it is empty exactly when the input is all whitespace, and otherwise neither starts nor ends with whitespace |
| JsText.TrimIdempotent | src/main/resources/static/js/tasks.js:223 | trimming a trimmed value changes nothing |
| JsText.Decimal | src/main/resources/static/js/index.js:35 | the decimal rendering of a count is non-empty, all digits, and has no leading zero |
| JsText.ParseDecimalInverse | src/main/resources/static/js/api.js:17 | reading back a rendered status number gives that number |
| JsText.DecimalInjective | src/main/resources/static/js/index.js:35 | different numbers render differently |
| Seqs.Keep | src/main/resources/static/js/tasks.js:96-101 | `filter` keeps each element exactly as often as the input has it when the predicate holds, never otherwise |
| Seqs.KeepIsSubsequence | src/main/resources/static/js/tasks.js:293 | the filtered array keeps the input's order |
| Seqs.KeepEverything | src/main/resources/static/js/tasks.js:100 | a predicate that holds everywhere keeps the whole array |
| Seqs.KeepPartition | src/main/resources/static/js/tasks.js:61-62 | two complementary filters split the array's length between them |
| Seqs.KeepDisjoint | src/main/resources/static/js/tasks.js:61-62 | two exclusive filters together keep at most the array's length |
| Seqs.CountAfterUpdate | src/main/resources/static/js/tasks.js:150 | replacing one element changes a filtered count by that element's old and new membership only |
| Seqs.IndexWhere | src/main/resources/static/js/tasks.js:164 | `findIndex` is the first matching index, and is absent exactly when nothing matches |
| Escaping.ReplaceAll | src/main/resources/static/js/index.js:179 | a global replace of a character that does not occur changes nothing; the output holds only the input's other characters and the replacement's |
| Escaping.ReplaceAllAppend | src/main/resources/static/js/index.js:179 | a global replace distributes over concatenation |
| Escaping.EscHtml | src/main/resources/static/js/index.js:178-180 | the output has no `<`, `>` or `"`; text free of the four special characters is unchanged |
| Escaping.EscHtmlOneChar | src/main/resources/static/js/tasks.js:349 | on one character the chain of four replaces gives exactly that character's entity |
| Escaping.EscHtmlIsEach | src/main/resources/static/js/tasks.js:349 | because `&` is replaced first the chain never re-escapes an entity: it equals the per-character escape |
| Escaping.EscHtmlAmpersands | src/main/resources/static/js/index.js:179 | every `&` in the output opens one of the four entities |
| Escaping.EscHtmlRoundTrip | src/main/resources/static/js/index.js:178-180 | decoding the entities restores the original text |
| Escaping.EscAttr | src/main/resources/static/js/index.js:182-184 | the output has no `'` or `"`; text without quotes is unchanged |
| Escaping.EscAttrOneChar | src/main/resources/static/js/tasks.js:352-354 | on one character the two replaces give `&#39;` for `'`, `&quot;` for `"`, and the character itself otherwise, `&` included |
| Escaping.EscAttrIsEach | src/main/resources/static/js/tasks.js:353 | the chain of two replaces equals the per-character escape, so every other character, `&` included, passes through unchanged |
| Escaping.EscAttrConflatesQuoteAndEntity | src/main/resources/static/js/index.js:183 | since `&` is left alone, a quote and the literal text `&#39;` escape to the same string |
| Escaping.EscAttrDecodedBack | src/main/resources/static/js/index.js:72 | decoding the attribute value gives back any title without `&`, quotes included |
| Escaping.EscAttrBreaksHandler | src/main/resources/static/js/index.js:72 | for a title with an apostrophe and no `&` or backslash, the decoded handler argument is no longer one single-quoted literal: the handler fails to parse or runs the rest of the title as script |
| Escaping.EscAttrEscapedQuote | src/main/resources/static/js/index.js:72 | a title that escapes its own apostrophe with a backslash, such as `a\'b`, reaches the handler unchanged and is read as one literal without the backslash, so the dialog shows `"a'b"` |
| Escaping.EscAttrInjects | src/main/resources/static/js/tasks.js:134 | the title `x'+alert(1)+'` reaches the handler unchanged, so its argument is not one literal and the script calls `alert(1)` |
| Escaping.EscAttrArgument | src/main/resources/static/js/index.js:72 | through attribute decoding, a title without `&` comes back as it was, so the handler reads it as the literal text it is; with an apostrophe and no backslash it is not one literal; a title without `&`, quotes, backslashes or line breaks is read as itself |
| Escaping.EscScript | src/main/resources/static/js/tasks.js:134 | the corrected escape for the handler argument holds no `&`, quote or line break |
| Escaping.EscScriptRoundTrip | src/main/resources/static/js/tasks.js:134 | attribute decoding then literal reading of the corrected escape gives back exactly the title |
| Api.PathIsJoin | src/main/resources/static/js/api.js:25-65 | each endpoint path is the `/`-join of its segments |
| Api.RouteRoundTrip | src/main/resources/static/js/api.js:30-65 | for ids without `/`, reading a built path back gives the route it was built from |
| Api.DueDateForServer | src/main/resources/static/js/api.js:46 | the due date sent is `null` exactly for a falsy input, and otherwise carries a `T`: kept if it had one, else `T00:00:00` is appended |
| Api.DueDateIdempotent | src/main/resources/static/js/api.js:59 | normalising an already normalised due date changes nothing |
| Api.BareDateGetsMidnight | src/main/resources/static/js/api.js:46 | `2024-05-01` is sent as `2024-05-01T00:00:00` |
| Api.BodyOf | src/main/resources/static/js/api.js:27-62 | exactly the create and update calls carry a body; list bodies carry title, description and the id on update; task bodies carry the title, the description or `null`, the normalised due date and the priority, plus id and status on update; a task body's due date is `null` or has a time |
| Api.RequestFor | src/main/resources/static/js/api.js:7-12 | creates are POST, updates PUT, deletes DELETE and reads GET; a body is attached exactly for POST and PUT and is the call's body; the path reads back as the call's route |
| Api.PathPrefixes | src/main/resources/static/js/api.js:24-66 | list calls go under `/api/task-lists`; task calls go under `/task-lists/` with no `/api` prefix |
| Api.Classify | src/main/resources/static/js/api.js:13-20 | 204 is success with no value; a failure is reported exactly when the status is outside 200-299; the body's `error` is used when present, and otherwise the message is exactly `HTTP ` followed by the status in decimal; the message is never empty |
| Api.NoContentIgnoresBody | src/main/resources/static/js/api.js:14 | a 204 is classified the same whatever the body |
| Api.FallbackNamesStatus | src/main/resources/static/js/api.js:17 | without an error member the message is exactly `HTTP ` followed by the status in decimal, and reads back as the status |
| Ui.SetLoading | src/main/resources/static/js/ui.js:26-33 | a page without the bar keeps none; with it, the width is 75% while loading and 100% when loading ends |
| Ui.AroundLoad | src/main/resources/static/js/index.js:15-22 | a load leaves its effect unchanged and moves the bar to 75% before the request and to 100% after the reply, whether it succeeded or failed |
| Ui.LabelOr | src/main/resources/static/js/ui.js:69 | the label lookup with the key as fallback gives the label when a non-empty one exists, and the key when there is none or it is empty; the result is empty only for an empty key |
| Ui.PriorityLabel | src/main/resources/static/js/ui.js:65-71 | HIGH, MEDIUM and LOW read High, Medium and Low; anything else is shown raw |
| Ui.StatusLabel | src/main/resources/static/js/ui.js:73-76 | OPEN and COMPLETE read Open and Complete; anything else, including CLOSED, is shown raw |
| Ui.TaskStatusTags | src/main/resources/static/js/ui.js:74-75 | the tag of a closed task reads `CLOSED`; an open one reads `Open` |
| Ui.DateTag | src/main/resources/static/js/ui.js:78-93 | the tag is empty exactly when the date is absent or empty |
| Ui.DateTagReorders | src/main/resources/static/js/ui.js:81-91 | `y-m-d` is shown as `d/m/y` |
| Ui.DateTagIgnoresTime | src/main/resources/static/js/ui.js:81 | the part from the first `T` on does not change the tag |
| Ui.DateTagOfSentDueDate | src/main/resources/static/js/ui.js:78-82 | a due date shows the same tag before and after it is normalised for the server |
| Ui.DateTagExample | src/main/resources/static/js/ui.js:78-93 | `2024-05-01` with or without a time shows `01/05/2024` |
| Ui.OpenOverlay | src/main/resources/static/js/ui.js:36-39 | opening adds the overlay and locks scrolling |
| Ui.CloseOverlay | src/main/resources/static/js/ui.js:41-44 | closing removes only that overlay and unlocks scrolling even if others stay open |
| Ui.Click | src/main/resources/static/js/ui.js:47-52 | a backdrop click closes that overlay; any other click changes nothing |
| Ui.KeyDown | src/main/resources/static/js/ui.js:55-62 | Escape with an open overlay closes all of them and unlocks; anything else changes nothing |
| Ui.OnlyOpeningOpens | src/main/resources/static/js/ui.js:36-62 | over any event sequence, only ids that were opened can be open, and scrolling stays locked only if it was or something was opened |
| Ui.EscapeClosesAll | src/main/resources/static/js/ui.js:56-60 | after any history, Escape leaves no overlay open |
| ListsPage.CountLabel | src/main/resources/static/js/index.js:33-35 | `No lists yet`, `1 list`, or `<n> lists` |
| ListsPage.CountLabelInjective | src/main/resources/static/js/index.js:33-35 | different list counts never share a label |
| ListsPage.CardOf | src/main/resources/static/js/index.js:57-72 | the placeholder shows exactly when the description is falsy; the escaped title and description decode to the originals; the delete handler's argument text has no quotes but decodes back to any title without `&`, so the delete dialog shows the title read as a script literal; that is the title in double quotes when it has no `&`, quote, backslash or line break, and nothing when it has an apostrophe and no backslash |
| ListsPage.CorrectedCardOf | src/main/resources/static/js/index.js:72 | with the corrected escape the card is otherwise unchanged and the delete dialog shows exactly the title in double quotes, whatever the title |
| ListsPage.Render | src/main/resources/static/js/index.js:27-55 | the empty state shows exactly when there are no lists, the stats row exactly otherwise, with one card per list in order |
| ListsPage.EmptyDescriptionShowsPlaceholder | src/main/resources/static/js/index.js:62 | a card shows the placeholder exactly when its description is missing, `null` or empty |
| ListsPage.PageUrl | src/main/resources/static/js/index.js:81-83 | a card leads to `/task-lists/` followed by the list id |
| ListsPage.ListsReply | src/main/resources/static/js/index.js:16-20 | the reply to the lists request: success replaces the array wholesale; failure keeps it and toasts `Failed to load lists: ` and the message |
| ListsPage.LoadLists | src/main/resources/static/js/index.js:14-24 | success replaces the array wholesale; failure keeps it and toasts `Failed to load lists: ` and the message; the loading bar is at 75% while the request is in flight and at 100% after either reply |
| ListsPage.SaveList | src/main/resources/static/js/index.js:114-146 | a blank title only sets the inline error; otherwise the call is sent first and a reload follows exactly on success; a successful save and reload adopt the reloaded array, and a failed save or reload keeps the old one; a failed save toasts exactly its message; a successful one toasts `List updated successfully` when editing and `List created!` otherwise, followed by the reload's failure toast only when the reload fails |
| ListsPage.BlankDescriptionOmitted | src/main/resources/static/js/index.js:132-135 | the description key is absent exactly when the trimmed description is empty |
| ListsPage.SaveListVerb | src/main/resources/static/js/index.js:131-136 | PUT exactly when editing, with the id in path and body; POST otherwise; the title sent is the trimmed one |
| ListsPage.ConfirmDelete | src/main/resources/static/js/index.js:159-175 | no chosen list means nothing is sent; otherwise the delete goes first and a reload follows exactly on success; a successful delete and reload adopt the reloaded array, and a failed delete or reload keeps the old one; a failed delete toasts exactly its message; a successful one toasts `List deleted`, followed by the reload's failure toast only when the reload fails |
| ListsPage.NeverPatched | src/main/resources/static/js/index.js:130-139 | after create, edit or delete the array is either unchanged or exactly the reload's reply, and the reload is the second request |
| TasksPage.BootFrom | src/main/resources/static/js/tasks.js:15-20 | the page redirects exactly when the last path piece is empty; otherwise it loads that piece, which has no `/` |
| TasksPage.BootRequests | src/main/resources/static/js/tasks.js:22 | boot issues two GETs, for the list and for its tasks |
| TasksPage.BootOnListPage | src/main/resources/static/js/index.js:82 | the address a list card leads to boots the tasks page on that list |
| TasksPage.BootTrailingSlash | src/main/resources/static/js/tasks.js:15-19 | a path ending in `/` redirects to the index |
| TasksPage.LoadList | src/main/resources/static/js/tasks.js:25-32 | success stores what the server sent, nothing for a 2xx reply without a JSON body; failure keeps the old list and toasts `Failed to load list info: ` and the message |
| TasksPage.LoadTasks | src/main/resources/static/js/tasks.js:34-45 | success replaces the array; failure keeps it and toasts `Failed to load tasks: ` and the message; the loading bar is at 75% while the request is in flight and at 100% after either reply |
| TasksPage.HeaderOf | src/main/resources/static/js/tasks.js:48-55 | the title reads `TaskFlow — ` followed by the list title; the description line is empty exactly for a falsy description |
| TasksPage.Visible | src/main/resources/static/js/tasks.js:96-101 | the shown tasks keep array order; OPEN and CLOSED show exactly the tasks with that status; ALL or any other filter shows all |
| TasksPage.ItemOf | src/main/resources/static/js/tasks.js:112-134 | an item is drawn completed exactly when CLOSED; title and description decode to the originals; the priority, status and date texts are the task's labels and date tag; the delete handler's argument has no quotes but decodes back to any title without `&`, so the dialog shows the title read as a script literal; that is the title in double quotes when it has no `&`, quote, backslash or line break, and nothing when it has an apostrophe and no backslash |
| TasksPage.CorrectedItemOf | src/main/resources/static/js/tasks.js:134 | with the corrected escape the item is otherwise unchanged and the delete dialog shows exactly the title in double quotes, whatever the title |
| TasksPage.RenderTasks | src/main/resources/static/js/tasks.js:92-110 | the empty state shows exactly when the filter shows nothing; otherwise one item per shown task, in order |
| TasksPage.ClosedTaskItem | src/main/resources/static/js/tasks.js:113-126 | a closed task is drawn completed but tagged with the raw `CLOSED` |
| TasksPage.StatsOf | src/main/resources/static/js/tasks.js:58-62 | total is the array length; open plus done is at most the total, and equal when every status is OPEN or CLOSED |
| TasksPage.StatsMatchFilters | src/main/resources/static/js/tasks.js:61 | the chips count exactly what the OPEN and CLOSED filters show |
| TasksPage.Flip | src/main/resources/static/js/tasks.js:147 | the new status is OPEN or CLOSED and differs from a known old status |
| TasksPage.FlipTwice | src/main/resources/static/js/tasks.js:170 | flipping twice restores OPEN and CLOSED and turns anything else into CLOSED |
| TasksPage.FindTask | src/main/resources/static/js/tasks.js:144 | `find` by id gives the first task with that id, or nothing when none has it |
| TasksPage.BeginToggle | src/main/resources/static/js/tasks.js:143-152 | an unknown id does nothing; otherwise only the found task changes, only in its status, which becomes the flipped status, and the update is sent with it |
| TasksPage.SettleToggle | src/main/resources/static/js/tasks.js:154-174 | success puts the server's copy in place of the first task with the id; failure sets the toggled task's status to the flip of the new status, touches no other task, and toasts |
| TasksPage.ToggleTask | src/main/resources/static/js/tasks.js:143-145 | toggling an unknown id sends nothing and changes nothing |
| TasksPage.ToggleSettles | src/main/resources/static/js/tasks.js:154-171 | the toggled task ends as the server's copy, or after a failure with its OPEN/CLOSED status restored (any other status becomes CLOSED); no other task changes |
| TasksPage.OptimisticStats | src/main/resources/static/js/tasks.js:150-152 | toggling an open task moves one count from open to done before the server answers |
| TasksPage.SaveTask | src/main/resources/static/js/tasks.js:222-273 | a blank title only sets the inline error; a create appends the server's task; an edit replaces the first task with its id; a failure leaves the array |
| TasksPage.SaveTaskCallBody | src/main/resources/static/js/tasks.js:241-260 | the body of the save call carries the given title and description (or `null` when empty), the normalised due date with the input's tag, the chosen priority, and on edit the id and status |
| TasksPage.SaveTaskPayload | src/main/resources/static/js/tasks.js:241-260 | the title sent is trimmed and non-empty; the description sent is the trimmed one, or `null` when blank; the due date is `null` when blank and otherwise the normalised input, which has a time and shows the same tag; the priority is the chosen one; an edit carries the id and chosen status |
| TasksPage.ConfirmDeleteTask | src/main/resources/static/js/tasks.js:286-304 | no chosen task means nothing is sent; success removes every task with that id, keeps the rest in order with their counts, and toasts exactly `Task deleted`; failure changes nothing and toasts exactly the message |
| TasksPage.DeleteUnknownId | src/main/resources/static/js/tasks.js:293 | deleting an id no task has leaves the array unchanged |
| TasksPage.SaveEditList | src/main/resources/static/js/tasks.js:320-345 | a blank title only sets the inline error; otherwise the trimmed update is sent; success stores what the server sent (nothing for a 2xx reply without a JSON body) and toasts `List updated!`; failure keeps the old list and toasts the message |
| TasksPage.EditListSameRequest | src/main/resources/static/js/tasks.js:335 | editing a list from its tasks page sends the same update as the lists page's editor |

## Left out

- Markup, CSS classes, SVG icons, button labels and disabled states, and focus handling are not modelled. Each renderer is modelled as the values it puts on the page.
- Ui.SetLoading: the timer that resets the bar to width 0 300 ms after loading ends is not modelled. The toast fade-out timers are not modelled either.
- Api.Classify: the network failure of `fetch` itself is not modelled; a reply always has a status. The body's `error` member is modelled as a string, so a truthy non-string error value is not represented.
- ListsPage.LoadLists: a 2xx reply with no JSON body would store `null` as the list array. The model's replies always carry an array, so this path is not modelled.
- TasksPage.SaveTask: a 2xx reply without a body would store `null` in the task array. Replies are modelled as a task or an error message, so this path is not modelled. The same holds for `TasksPage.SettleToggle`.
- TasksPage.SettleToggle: toggles are modelled one at a time. Interleaved toggles, or a reload while a toggle is pending, are not modelled.
- TasksPage.LoadTasks: a 2xx reply with no JSON body would store `null` as the task array, after which rendering throws and the catch toasts `Failed to load tasks: ` with the engine's message. The model's replies always carry an array, so this path is not modelled.
- Ui.StatusLabel: as for `Ui.PriorityLabel`, inherited JavaScript object keys such as `constructor` are not modelled.
- Escaping.UnescapeHtml decodes only the five character references the two escapes produce. An HTML parser also decodes every other named or numeric reference, so what `escAttr` delivers for a title containing `&` is not modelled; `Escaping.EscAttrDecodedBack`, `Escaping.EscAttrBreaksHandler`, `Escaping.EscAttrArgument`, `ListsPage.CardOf` and `TasksPage.ItemOf` say what the handler receives only for titles without `&`.
- Escaping.ReadScriptLiteral reads `\xHH` escapes and the one-character escapes (`\'`, `\\`, `\n` and the like). `\u` escapes, escapes that start with a digit and line continuations read as `NotModelled`, a third outcome beside a value and `NotOneLiteral`.
- ListsPage.SaveList: the loading bar that the reload after a successful save moves is stated by `ListsPage.LoadLists`, not carried through this member. The same holds for `ListsPage.ConfirmDelete`.
- Ui.PriorityLabel: the label tables are modelled as maps. Inherited JavaScript object keys such as `constructor`, which would return a non-string, are not modelled.
- `formatRelative` (the card's relative creation time) and the `created` field's display are not modelled, because they depend on the clock.
- Closing a dialog after a successful save or delete is not part of the page effects; the overlay state itself is modelled in `Ui`.
- The edit-dialog pre-fill functions (`openEditModal`, `openEditTaskModal`, `openEditListModal`) are not modelled. The Enter-key listeners, and `openOverlay` on a missing element (which throws), are not modelled either.
- The Java backend (controllers, services, entities, repositories) is not part of this model.

## Findings

| source | as written | input that shows it | evidently intended | confidence | as-written member | corrected member |
|---|---|---|---|---|---|---|
| src/main/resources/static/js/index.js:72 | `escAttr` turns `'` into `&#39;` inside the double-quoted `onclick` of the delete button (also tasks.js:134); the HTML parser decodes `&#39;` back to `'` before the handler is compiled | a list or task titled `O'Brien`: the handler becomes `openDeleteModal('…', 'O'Brien')`, which does not parse, so the delete dialog never opens; one titled `x'+alert(1)+'`: the handler becomes `openDeleteModal('…', 'x'+alert(1)+'')`, which parses and runs `alert(1)` | the argument stays one literal, so the dialog opens and names the item whatever its title, and no part of a title runs as script | medium, not executed | Escaping.EscAttrBreaksHandler | Escaping.EscScriptRoundTrip |

=== FILE: api.dfy ===
/**
  The API client: which request each domain call sends (method, path,
  JSON body), how task payloads are normalised before sending, and how an
  HTTP response is turned into a value or an error message. The network
  itself is not modelled: a response is given as its status and its parsed
  body.
 */
module Api {
  import opened Base
  import opened JsText

  datatype Method = GET | POST | PUT | DELETE

  /**
    A JSON request body as `JSON.stringify` writes it. An `Option` field that
    is `None` is a key the source does not write; a `JsStr` field that is
    `Undefined` is a key `JSON.stringify` drops, and `Null` is sent as `null`.
   */
  datatype Payload =
    | ListPayload(listId: Option<string>, title: string, description: JsStr)
    | TaskPayload(taskId: Option<string>, title: string, description: JsStr,
                  dueDate: JsStr, priority: string, status: Option<string>)

  datatype Request = Request(verb: Method, path: string, body: Option<Payload>)

  // ---------------------------------------------------------------------
  // endpoints
  // ---------------------------------------------------------------------

  /** The four resource paths the client talks to. */
  datatype Route =
    | Lists
    | ListAt(id: string)
    | TasksOf(listId: string)
    | TaskAt(listId: string, taskId: string)

  /** The path of a route, as the client's template literals spell it. */
  function PathOf(route: Route): string {
    match route
    case Lists => "/api/task-lists"
    case ListAt(id) => "/api/task-lists/" + id
    case TasksOf(listId) => "/task-lists/" + listId + "/tasks"
    case TaskAt(listId, taskId) => "/task-lists/" + listId + "/tasks/" + taskId
  }

  /** The `/`-separated pieces of a route's path. */
  function Segments(route: Route): seq<string> {
    match route
    case Lists => ["", "api", "task-lists"]
    case ListAt(id) => ["", "api", "task-lists", id]
    case TasksOf(listId) => ["", "task-lists", listId, "tasks"]
    case TaskAt(listId, taskId) => ["", "task-lists", listId, "tasks", taskId]
  }

  /** Reads a path back into the route it names, if it names one. */
  function ParseRoute(path: string): Option<Route> {
    var seg := Split(path, '/');
    if seg == ["", "api", "task-lists"] then Some(Lists)
    else if |seg| == 4 && seg[..3] == ["", "api", "task-lists"] then Some(ListAt(seg[3]))
    else if |seg| == 4 && seg[0] == "" && seg[1] == "task-lists" && seg[3] == "tasks" then Some(TasksOf(seg[2]))
    else if |seg| == 5 && seg[0] == "" && seg[1] == "task-lists" && seg[3] == "tasks" then Some(TaskAt(seg[2], seg[4]))
    else None
  }

  /** Ids that can be placed in a path without adding pieces to it. */
  predicate PathSafe(route: Route) {
    match route
    case Lists => true
    case ListAt(id) => '/' !in id
    case TasksOf(listId) => '/' !in listId
    case TaskAt(listId, taskId) => '/' !in listId && '/' !in taskId
  }

  lemma PathIsJoin(route: Route)
    ensures PathOf(route) == Join(Segments(route), '/')
  {
    match route
    case Lists => ListsPathIsJoin();
    case ListAt(id) => ListPathIsJoin(id);
    case TasksOf(listId) => TasksPathIsJoin(listId);
    case TaskAt(listId, taskId) => TaskPathIsJoin(listId, taskId);
  }

  lemma ListsPathIsJoin()
    ensures PathOf(Lists) == Join(["", "api", "task-lists"], '/')
  {
    JoinThree('/', "", "api", "task-lists");
    assert "/api/task-lists" == "" + "/" + "api" + "/" + "task-lists";
  }

  lemma ListPathIsJoin(id: string)
    ensures PathOf(ListAt(id)) == Join(["", "api", "task-lists", id], '/')
  {
    JoinFour('/', "", "api", "task-lists", id);
    assert "/api/task-lists/" == "" + "/" + "api" + "/" + "task-lists" + "/";
  }

  lemma TasksPathIsJoin(listId: string)
    ensures PathOf(TasksOf(listId)) == Join(["", "task-lists", listId, "tasks"], '/')
  {
    JoinFour('/', "", "task-lists", listId, "tasks");
    assert "/task-lists/" == "" + "/" + "task-lists" + "/";
    assert "/tasks" == "/" + "tasks";
  }

  lemma TaskPathIsJoin(listId: string, taskId: string)
    ensures PathOf(TaskAt(listId, taskId)) == Join(["", "task-lists", listId, "tasks", taskId], '/')
  {
    JoinFive('/', "", "task-lists", listId, "tasks", taskId);
    var x := "" + "/" + "task-lists" + "/" + listId;
    assert x == "/task-lists/" + listId;
    assert x + "/" + "tasks" + "/" == x + "/tasks/";
  }

  /** Every path the client builds names exactly the route it was built from. */
  lemma RouteRoundTrip(route: Route)
    requires PathSafe(route)
    ensures ParseRoute(PathOf(route)) == Some(route)
  {
    PathIsJoin(route);
    SplitJoin(Segments(route), '/');
    var seg := Segments(route);
    if route.ListAt? {
      assert seg[..3] == ["", "api", "task-lists"];
    }
  }

  /** The domain calls of the client's `taskLists` and `tasks` objects. */
  datatype Call =
    | ListLists
    | CreateList(title: string, description: JsStr)
    | GetList(id: string)
    | UpdateList(id: string, title: string, description: JsStr)
    | DeleteList(id: string)
    | ListTasks(listId: string)
    | CreateTask(listId: string, title: string, description: JsStr, dueDate: JsStr, priority: string)
    | GetTask(listId: string, taskId: string)
    | UpdateTask(listId: string, taskId: string, fields: TaskFields)
    | DeleteTask(listId: string, taskId: string)

  /** The fields the caller of `tasks.update` hands over. */
  datatype TaskFields = TaskFields(id: string, title: string, description: JsStr,
                                   dueDate: JsStr, priority: string, status: string)

  predicate IsListCall(c: Call) {
    c.ListLists? || c.CreateList? || c.GetList? || c.UpdateList? || c.DeleteList?
  }

  function RouteOf(c: Call): Route {
    match c
    case ListLists => Lists
    case CreateList(_, _) => Lists
    case GetList(id) => ListAt(id)
    case UpdateList(id, _, _) => ListAt(id)
    case DeleteList(id) => ListAt(id)
    case ListTasks(listId) => TasksOf(listId)
    case CreateTask(listId, _, _, _, _) => TasksOf(listId)
    case GetTask(listId, taskId) => TaskAt(listId, taskId)
    case UpdateTask(listId, taskId, _) => TaskAt(listId, taskId)
    case DeleteTask(listId, taskId) => TaskAt(listId, taskId)
  }

  /**
    The due date as it is sent: a value containing `T` is passed through, any
    other non-empty value gets a midnight time appended, and an absent or
    empty value becomes `null`.
   */
  function DueDateForServer(dueDate: JsStr): (r: JsStr)
    ensures r.Null? || (r.Str? && 'T' in r.s)
    ensures r.Null? <==> !Truthy(dueDate)
    ensures dueDate.Str? && 'T' in dueDate.s ==> r == dueDate
    ensures Truthy(dueDate) && 'T' !in dueDate.s ==> r == Str(dueDate.s + "T00:00:00")
  {
    if dueDate.Str? && 'T' in dueDate.s then dueDate
    else if Truthy(dueDate) then
      assert 'T' in "T00:00:00";
      Str(dueDate.s + "T00:00:00")
    else Null
  }

  /** Normalising a due date that is already normalised changes nothing. */
  lemma DueDateIdempotent(dueDate: JsStr)
    ensures DueDateForServer(DueDateForServer(dueDate)) == DueDateForServer(dueDate)
  {
  }

  /** A bare calendar date is sent as midnight of that day. */
  lemma BareDateGetsMidnight()
    ensures DueDateForServer(Str("2024-05-01")) == Str("2024-05-01T00:00:00")
  {
    assert 'T' !in "2024-05-01";
  }

  /** The JSON body of a call; only the calls that create or update send one. */
  function BodyOf(c: Call): (r: Option<Payload>)
    ensures r.Some? <==> c.CreateList? || c.UpdateList? || c.CreateTask? || c.UpdateTask?
    ensures c.CreateList? ==> r == Some(ListPayload(None, c.title, c.description))
    ensures c.UpdateList? ==> r == Some(ListPayload(Some(c.id), c.title, c.description))
    ensures c.CreateTask? ==>
      r == Some(TaskPayload(None, c.title, OrNull(c.description), DueDateForServer(c.dueDate), c.priority, None))
    ensures c.UpdateTask? ==>
      r == Some(TaskPayload(Some(c.fields.id), c.fields.title, OrNull(c.fields.description),
                            DueDateForServer(c.fields.dueDate), c.fields.priority, Some(c.fields.status)))
    ensures r.Some? && r.value.TaskPayload? ==> !Truthy(r.value.description) ==> r.value.description.Null?
    ensures r.Some? && r.value.TaskPayload? ==> r.value.dueDate.Null? || (r.value.dueDate.Str? && 'T' in r.value.dueDate.s)
  {
    match c
    case CreateList(title, description) => Some(ListPayload(None, title, description))
    case UpdateList(id, title, description) => Some(ListPayload(Some(id), title, description))
    case CreateTask(_, title, description, dueDate, priority) =>
      Some(TaskPayload(None, title, OrNull(description), DueDateForServer(dueDate), priority, None))
    case UpdateTask(_, _, f) =>
      Some(TaskPayload(Some(f.id), f.title, OrNull(f.description), DueDateForServer(f.dueDate),
                       f.priority, Some(f.status)))
    case _ => None
  }

  function MethodOf(c: Call): Method {
    match c
    case CreateList(_, _) => POST
    case CreateTask(_, _, _, _, _) => POST
    case UpdateList(_, _, _) => PUT
    case UpdateTask(_, _, _) => PUT
    case DeleteList(_) => DELETE
    case DeleteTask(_, _) => DELETE
    case _ => GET
  }

  /** The request a domain call issues through `request(method, path, body)`. */
  function RequestFor(c: Call): (r: Request)
    ensures r.verb == GET <==> c.ListLists? || c.GetList? || c.ListTasks? || c.GetTask?
    ensures r.verb == POST <==> c.CreateList? || c.CreateTask?
    ensures r.verb == PUT <==> c.UpdateList? || c.UpdateTask?
    ensures r.verb == DELETE <==> c.DeleteList? || c.DeleteTask?
    ensures r.body.Some? <==> r.verb == POST || r.verb == PUT
    ensures r.body == BodyOf(c)
    ensures PathSafe(RouteOf(c)) ==> ParseRoute(r.path) == Some(RouteOf(c))
    ensures c.UpdateList? ==> r.body == Some(ListPayload(Some(c.id), c.title, c.description))
    ensures c.CreateList? ==> r.body == Some(ListPayload(None, c.title, c.description))
  {
    assert PathSafe(RouteOf(c)) ==> ParseRoute(PathOf(RouteOf(c))) == Some(RouteOf(c)) by {
      if PathSafe(RouteOf(c)) {
        RouteRoundTrip(RouteOf(c));
      }
    }
    Request(MethodOf(c), PathOf(RouteOf(c)), BodyOf(c))
  }

  /** Task-list calls go under `/api/task-lists`; task calls go under `/task-lists/` with no `/api` prefix. */
  lemma PathPrefixes(c: Call)
    ensures IsListCall(c) ==> "/api/task-lists" <= RequestFor(c).path
    ensures !IsListCall(c) ==> "/task-lists/" <= RequestFor(c).path && !("/api/" <= RequestFor(c).path)
  {
    var p := RequestFor(c).path;
    if !IsListCall(c) {
      assert p[..12] == "/task-lists/";
      assert p[1] == 't';
    }
  }

  // ---------------------------------------------------------------------
  // responses
  // ---------------------------------------------------------------------

  /** A JSON body as `res.json()` parsed it, with its `error` member. */
  datatype Body<D> = Body(value: D, error: JsStr)

  /** `res.ok`: the status is in the range 200-299. */
  predicate StatusOk(status: nat) {
    200 <= status <= 299
  }

  /** Whether the parsed body carries a usable error message (`data && data.error`). */
  predicate HasErrorMessage<D>(body: Option<Body<D>>) {
    body.Some? && Truthy(body.value.error)
  }

  /**
    `request` after `fetch` resolved: 204 is a success with no value and the
    body is not read; any other status outside 200-299 throws with the body's
    `error` message or `HTTP <status>`; otherwise the parsed body is returned,
    `null` (`None`) when it did not parse.
   */
  function Classify<D>(status: nat, body: Option<Body<D>>): (r: Result<Option<D>, string>)
    ensures status == 204 ==> r == Ok(None)
    ensures r.Err? <==> !StatusOk(status)
    ensures r.Ok? && status != 204 ==> (r.value.Some? <==> body.Some?)
    ensures r.Ok? && status != 204 && body.Some? ==> r.value == Some(body.value.value)
    ensures r.Err? && HasErrorMessage(body) ==> r.error == body.value.error.s
    ensures r.Err? && !HasErrorMessage(body) ==> r.error == "HTTP " + Decimal(status)
    ensures r.Err? ==> r.error != ""
  {
    if status == 204 then Ok(None)
    else if !StatusOk(status) then
      if HasErrorMessage(body) then Err(body.value.error.s)
      else Err("HTTP " + Decimal(status))
    else if body.Some? then Ok(Some(body.value.value))
    else Ok(None)
  }

  /** A 204 response is the same whatever its body would have parsed to. */
  lemma NoContentIgnoresBody<D>(b1: Option<Body<D>>, b2: Option<Body<D>>)
    ensures Classify(204, b1) == Classify(204, b2) == Ok(None)
  {
  }

  /** The status a fallback message `HTTP <n>` names, if the message has that form. */
  function StatusInMessage(message: string): Option<nat> {
    if |message| > 5 && message[..5] == "HTTP "
       && forall i :: 5 <= i < |message| ==> IsDigit(message[i])
    then Some(ParseDecimal(message[5..]))
    else None
  }

  /** Without an error member in the body, the error message names the failing status. */
  lemma FallbackNamesStatus<D>(status: nat, body: Option<Body<D>>)
    requires !StatusOk(status) && !HasErrorMessage(body)
    ensures Classify(status, body).Err?
    ensures Classify(status, body).error == "HTTP " + Decimal(status)
    ensures StatusInMessage(Classify(status, body).error) == Some(status)
  {
    var m := Classify(status, body).error;
    assert m == "HTTP " + Decimal(status);
    assert m[..5] == "HTTP ";
    assert m[5..] == Decimal(status);
    ParseDecimalInverse(status);
  }
}

=== FILE: base.dfy ===
/** Failure-carrying wrappers shared by every module of the model. */
module Base {

  /** A value that may be missing (JavaScript's `null` where the source returns one). */
  datatype Option<+T> = None | Some(value: T)

  /** The outcome of an awaited call: its value, or the message of the Error it threw. */
  datatype Result<+T, +E> = Ok(value: T) | Err(error: E)
}

=== FILE: entities.dfy ===
/** The two records the pages hold in memory, as the backend returns them. */
module Entities {
  import opened JsText

  /** A task list; `created` is the creation timestamp string, when present. */
  datatype TaskList = TaskList(id: string, title: string, description: JsStr, created: JsStr)

  /**
    A task. `priority` and `status` are the raw strings the backend sends
    (LOW/MEDIUM/HIGH and OPEN/CLOSED); the pages compare them as strings, so
    any other value is representable and handled as the code handles it.
   */
  datatype Task = Task(id: string, title: string, description: JsStr, dueDate: JsStr,
                       priority: string, status: string)

  const OPEN: string := "OPEN"
  const CLOSED: string := "CLOSED"

  /** The message every title check shows when the trimmed title is empty. */
  const TitleRequired: string := "Title is required."
}

=== FILE: escaping.dfy ===
/**
  The two escaping helpers of the pages, `escHtml` (element text) and
  `escAttr` (the quoted argument of an inline handler). Both pages carry
  identical copies; they are defined once here, together with the decoding
  an HTML parser applies and an escape that survives that decoding.
 */
module Escaping {
  import opened Base

  /** `s.replace(/c/g, rep)`: every occurrence of `c` becomes `rep`. */
  function ReplaceAll(s: string, c: char, rep: string): (r: string)
    ensures c !in s ==> r == s
    ensures forall d :: d in r ==> (d in s && d != c) || d in rep
    decreases |s|
  {
    if |s| == 0 then ""
    else (if s[0] == c then rep else [s[0]]) + ReplaceAll(s[1..], c, rep)
  }

  /** Replacing distributes over concatenation. */
  lemma {:induction false} ReplaceAllAppend(a: string, b: string, c: char, rep: string)
    ensures ReplaceAll(a + b, c, rep) == ReplaceAll(a, c, rep) + ReplaceAll(b, c, rep)
    decreases |a|
  {
    if |a| > 0 {
      assert (a + b)[1..] == a[1..] + b;
      ReplaceAllAppend(a[1..], b, c, rep);
    } else {
      assert a + b == b;
    }
  }

  // ---------------------------------------------------------------------
  // escHtml
  // ---------------------------------------------------------------------

  /** `escHtml` as written: four global replacements, `&` first. */
  function EscHtml(s: string): (r: string)
    ensures '<' !in r && '>' !in r && '"' !in r
    ensures '&' !in s && '<' !in s && '>' !in s && '"' !in s ==> r == s
  {
    var a := ReplaceAll(s, '&', "&amp;");
    var b := ReplaceAll(a, '<', "&lt;");
    assert '<' !in b;
    var c := ReplaceAll(b, '>', "&gt;");
    assert '<' !in c && '>' !in c;
    ReplaceAll(c, '"', "&quot;")
  }

  /** The entity one character escapes to. */
  function EscHtmlChar(c: char): string {
    if c == '&' then "&amp;"
    else if c == '<' then "&lt;"
    else if c == '>' then "&gt;"
    else if c == '"' then "&quot;"
    else [c]
  }

  /** Reference definition: escape character by character. */
  function EscHtmlEach(s: string): string
    decreases |s|
  {
    if |s| == 0 then "" else EscHtmlChar(s[0]) + EscHtmlEach(s[1..])
  }

  /** Replacing in a one-character string. */
  lemma ReplaceAllOne(x: char, c: char, rep: string)
    ensures ReplaceAll([x], c, rep) == if x == c then rep else [x]
  {
    assert [x][1..] == "";
    assert ReplaceAll([x], c, rep) == (if x == c then rep else [x]) + ReplaceAll("", c, rep);
  }

  /** The chained replacements escape one character the way `EscHtmlChar` does. */
  lemma EscHtmlOneChar(c: char)
    ensures EscHtml([c]) == EscHtmlChar(c)
  {
    ReplaceAllOne(c, '&', "&amp;");
    var a := ReplaceAll([c], '&', "&amp;");
    if c == '&' {
      assert '<' !in a && '>' !in a && '"' !in a;
    } else {
      ReplaceAllOne(c, '<', "&lt;");
      var b := ReplaceAll(a, '<', "&lt;");
      if c == '<' {
        assert '>' !in b && '"' !in b;
      } else {
        ReplaceAllOne(c, '>', "&gt;");
        var d := ReplaceAll(b, '>', "&gt;");
        if c == '>' {
          assert '"' !in d;
        } else {
          ReplaceAllOne(c, '"', "&quot;");
        }
      }
    }
  }

  /** Because `&` is replaced first, the chain never re-escapes an entity: it is the per-character escape. */
  lemma {:induction false} EscHtmlIsEach(s: string)
    ensures EscHtml(s) == EscHtmlEach(s)
    decreases |s|
  {
    if |s| > 0 {
      var head, tail := [s[0]], s[1..];
      assert s == head + tail;
      ReplaceAllAppend(head, tail, '&', "&amp;");
      var a1, a2 := ReplaceAll(head, '&', "&amp;"), ReplaceAll(tail, '&', "&amp;");
      ReplaceAllAppend(a1, a2, '<', "&lt;");
      var b1, b2 := ReplaceAll(a1, '<', "&lt;"), ReplaceAll(a2, '<', "&lt;");
      ReplaceAllAppend(b1, b2, '>', "&gt;");
      var c1, c2 := ReplaceAll(b1, '>', "&gt;"), ReplaceAll(b2, '>', "&gt;");
      ReplaceAllAppend(c1, c2, '"', "&quot;");
      assert EscHtml(s) == EscHtml(head) + EscHtml(tail);
      EscHtmlOneChar(s[0]);
      EscHtmlIsEach(tail);
    }
  }

  /** Whether `s` begins with one of the four entities `escHtml` produces. */
  predicate StartsWithEntity(s: string) {
    || (|s| >= 5 && s[..5] == "&amp;")
    || (|s| >= 4 && s[..4] == "&lt;")
    || (|s| >= 4 && s[..4] == "&gt;")
    || (|s| >= 6 && s[..6] == "&quot;")
  }

  /** In the per-character escape every `&` opens an entity. */
  lemma {:induction false} EachAmpersandStartsEntity(s: string)
    ensures forall k :: 0 <= k < |EscHtmlEach(s)| && EscHtmlEach(s)[k] == '&' ==> StartsWithEntity(EscHtmlEach(s)[k..])
    decreases |s|
  {
    if |s| > 0 {
      var e, rest := EscHtmlChar(s[0]), EscHtmlEach(s[1..]);
      var r := e + rest;
      EachAmpersandStartsEntity(s[1..]);
      forall k | 0 <= k < |r| && r[k] == '&'
        ensures StartsWithEntity(r[k..])
      {
        if k < |e| {
          assert k == 0 && e[0] == '&';
          assert r[..|e|] == e;
        } else {
          assert r[k..] == rest[k - |e|..];
        }
      }
    }
  }

  /** Every `&` in the output of `escHtml` opens an entity; no raw `&` survives. */
  lemma EscHtmlAmpersands(s: string)
    ensures forall k :: 0 <= k < |EscHtml(s)| && EscHtml(s)[k] == '&' ==> StartsWithEntity(EscHtml(s)[k..])
  {
    EscHtmlIsEach(s);
    EachAmpersandStartsEntity(s);
  }

  /**
    Decoding of the five character references the two helpers produce, as an
    HTML parser reads element text and quoted attribute values.
   */
  function UnescapeHtml(s: string): string
    decreases |s|
  {
    if |s| == 0 then ""
    else if |s| >= 5 && s[..5] == "&amp;" then "&" + UnescapeHtml(s[5..])
    else if |s| >= 4 && s[..4] == "&lt;" then "<" + UnescapeHtml(s[4..])
    else if |s| >= 4 && s[..4] == "&gt;" then ">" + UnescapeHtml(s[4..])
    else if |s| >= 6 && s[..6] == "&quot;" then "\"" + UnescapeHtml(s[6..])
    else if |s| >= 5 && s[..5] == "&#39;" then "'" + UnescapeHtml(s[5..])
    else [s[0]] + UnescapeHtml(s[1..])
  }

  /** Decoding one escaped character gives the character back. */
  lemma UnescapeEscapedChar(c: char, t: string)
    ensures UnescapeHtml(EscHtmlChar(c) + t) == [c] + UnescapeHtml(t)
  {
    var e := EscHtmlChar(c);
    var s := e + t;
    assert s[..|e|] == e;
    assert s[|e|..] == t;
    if c == '&' {
      assert UnescapeHtml(s) == "&" + UnescapeHtml(s[5..]);
    } else if c == '<' {
      assert |s| >= 5 ==> s[..5][1] == 'l';
      assert UnescapeHtml(s) == "<" + UnescapeHtml(s[4..]);
    } else if c == '>' {
      assert |s| >= 5 ==> s[..5][1] == 'g';
      assert s[..4][1] == 'g';
      assert UnescapeHtml(s) == ">" + UnescapeHtml(s[4..]);
    } else if c == '"' {
      assert s[..5][1] == 'q' && s[..4][1] == 'q';
      assert UnescapeHtml(s) == "\"" + UnescapeHtml(s[6..]);
    } else {
      assert e == [c] && s[0] == c;
      assert |s| >= 4 ==> s[..4][0] == c;
      assert |s| >= 5 ==> s[..5][0] == c;
      assert |s| >= 6 ==> s[..6][0] == c;
      assert UnescapeHtml(s) == [c] + UnescapeHtml(s[1..]);
    }
  }

  /** `escHtml` loses nothing: decoding its output restores the input. */
  lemma {:induction false} EscHtmlRoundTrip(s: string)
    ensures UnescapeHtml(EscHtml(s)) == s
    decreases |s|
  {
    EscHtmlIsEach(s);
    EachRoundTrip(s);
  }

  lemma {:induction false} EachRoundTrip(s: string)
    ensures UnescapeHtml(EscHtmlEach(s)) == s
    decreases |s|
  {
    if |s| > 0 {
      UnescapeEscapedChar(s[0], EscHtmlEach(s[1..]));
      EachRoundTrip(s[1..]);
      assert s == [s[0]] + s[1..];
    }
  }

  // ---------------------------------------------------------------------
  // escAttr
  // ---------------------------------------------------------------------

  /** `escAttr` as written: single then double quotes become entities; `&` is left as it is. */
  function EscAttr(s: string): (r: string)
    ensures '\'' !in r && '"' !in r
    ensures '\'' !in s && '"' !in s ==> r == s
  {
    ReplaceAll(ReplaceAll(s, '\'', "&#39;"), '"', "&quot;")
  }

  /** The text one character becomes under `escAttr`: quotes become entities, everything else, `&` included, stays. */
  function EscAttrChar(c: char): string {
    if c == '\'' then "&#39;"
    else if c == '"' then "&quot;"
    else [c]
  }

  /** Reference definition: `escAttr` character by character. */
  function EscAttrEach(s: string): string
    decreases |s|
  {
    if |s| == 0 then "" else EscAttrChar(s[0]) + EscAttrEach(s[1..])
  }

  /** The two replacements escape one character the way `EscAttrChar` does. */
  lemma EscAttrOneChar(c: char)
    ensures EscAttr([c]) == EscAttrChar(c)
  {
    ReplaceAllOne(c, '\'', "&#39;");
    if c != '\'' {
      ReplaceAllOne(c, '"', "&quot;");
    }
  }

  /** Neither entity contains a quote, so the chain is the per-character escape. */
  lemma {:induction false} EscAttrIsEach(s: string)
    ensures EscAttr(s) == EscAttrEach(s)
    decreases |s|
  {
    if |s| > 0 {
      var head, tail := [s[0]], s[1..];
      assert s == head + tail;
      ReplaceAllAppend(head, tail, '\'', "&#39;");
      var a1, a2 := ReplaceAll(head, '\'', "&#39;"), ReplaceAll(tail, '\'', "&#39;");
      ReplaceAllAppend(a1, a2, '"', "&quot;");
      assert EscAttr(s) == EscAttr(head) + EscAttr(tail);
      EscAttrOneChar(s[0]);
      EscAttrIsEach(tail);
    }
  }

  /** Since `&` is not escaped, a quote and the entity for it escape to the same text. */
  lemma EscAttrConflatesQuoteAndEntity()
    ensures EscAttr("'") == EscAttr("&#39;") == "&#39;"
  {
    assert "'"[1..] == "";
    assert ReplaceAll("'", '\'', "&#39;") == "&#39;" + ReplaceAll("", '\'', "&#39;");
  }

  /** Decoding one character `escAttr` wrote, other than `&`, gives the character back. */
  lemma UnescapeAttrChar(c: char, t: string)
    requires c != '&'
    ensures UnescapeHtml(EscAttrChar(c) + t) == [c] + UnescapeHtml(t)
  {
    if c == '\'' {
      var s := "&#39;" + t;
      assert s[..5] == "&#39;" && s[5..] == t;
      assert s[..5][1] == '#' && s[..4][1] == '#';
      assert |s| >= 6 ==> s[..6][1] == '#';
      assert UnescapeHtml(s) == "'" + UnescapeHtml(s[5..]);
    } else {
      if c == '<' || c == '>' {
        var s := [c] + t;
        assert s[0] == c && s[1..] == t;
        assert |s| >= 4 ==> s[..4][0] == c;
        assert |s| >= 5 ==> s[..5][0] == c;
        assert |s| >= 6 ==> s[..6][0] == c;
        assert UnescapeHtml(s) == [c] + UnescapeHtml(s[1..]);
      } else {
        UnescapeEscapedChar(c, t);
      }
    }
  }

  /**
    The HTML parser decodes an attribute value before the handler in it is
    compiled, so it undoes `escAttr` on any text without `&`: the quotes come
    back into the script.
   */
  lemma {:induction false} EscAttrDecodedBack(s: string)
    requires '&' !in s
    ensures UnescapeHtml(EscAttr(s)) == s
    decreases |s|
  {
    EscAttrIsEach(s);
    EachAttrDecodedBack(s);
  }

  lemma {:induction false} EachAttrDecodedBack(s: string)
    requires '&' !in s
    ensures UnescapeHtml(EscAttrEach(s)) == s
    decreases |s|
  {
    if |s| > 0 {
      UnescapeAttrChar(s[0], EscAttrEach(s[1..]));
      EachAttrDecodedBack(s[1..]);
      assert s == [s[0]] + s[1..];
    }
  }

  // ---------------------------------------------------------------------
  // script string literals
  // ---------------------------------------------------------------------

  /** The value of a hexadecimal digit, either case. */
  function HexValue(c: char): (v: int)
    ensures -1 <= v < 16
  {
    if '0' <= c <= '9' then c as int - '0' as int
    else if 'a' <= c <= 'f' then c as int - 'a' as int + 10
    else if 'A' <= c <= 'F' then c as int - 'A' as int + 10
    else -1
  }

  /** How the text between the quotes of a single-quoted script literal reads. */
  datatype LiteralRead =
    | ReadsAs(text: string)  // one literal, standing for `text`
    | NotOneLiteral          // the text ends the literal early or does not parse inside it
    | NotModelled            // an escape this model does not read: `\u`, a digit, a line continuation

  /** A line terminator of the script grammar: after a backslash it continues the literal on the next line. */
  predicate IsLineTerminator(c: char) {
    c == '\n' || c == '\r' || c == '\U{2028}' || c == '\U{2029}'
  }

  /** The character a backslash and `c` stand for, for the escapes that are one character long. */
  function SingleEscape(c: char): (r: char)
    ensures c == 'n' ==> r == '\n'
    ensures c == 'r' ==> r == '\r'
    ensures c == 't' ==> r == '\t'
    ensures c !in "bfnrtv" ==> r == c
  {
    if c == 'b' then '\U{8}'
    else if c == 'f' then '\U{C}'
    else if c == 'n' then '\n'
    else if c == 'r' then '\r'
    else if c == 't' then '\t'
    else if c == 'v' then '\U{B}'
    else c
  }

  /** One character read, in front of how the rest reads. */
  function Prepend(c: char, rest: LiteralRead): (r: LiteralRead)
    ensures r.ReadsAs? <==> rest.ReadsAs?
    ensures r.ReadsAs? ==> r.text == [c] + rest.text
    ensures !rest.ReadsAs? ==> r == rest
  {
    if rest.ReadsAs? then ReadsAs([c] + rest.text) else rest
  }

  /**
    How a script engine reads the text between the quotes of a single-quoted
    string literal. A raw `'` ends the literal early and a raw line break
    cannot sit in it; a backslash either escapes the closing quote (when it
    is last), starts a `\xHH` escape (which must have two hexadecimal
    digits), or escapes one character (`\n` and the like stand for a control
    character, any other character for itself). `\u`, digit and
    line-continuation escapes are left unread.
   */
  function ReadScriptLiteral(x: string): (r: LiteralRead)
    ensures x == "" ==> r == ReadsAs("")
    ensures x != "" && x[0] == '\'' ==> r == NotOneLiteral
    decreases |x|
  {
    if |x| == 0 then ReadsAs("")
    else if x[0] == '\'' || x[0] == '\n' || x[0] == '\r' then NotOneLiteral
    else if x[0] != '\\' then Prepend(x[0], ReadScriptLiteral(x[1..]))
    else if |x| == 1 then NotOneLiteral
    else if x[1] == 'x' then
      if |x| >= 4 && HexValue(x[2]) >= 0 && HexValue(x[3]) >= 0 then
        Prepend((16 * HexValue(x[2]) + HexValue(x[3])) as char, ReadScriptLiteral(x[4..]))
      else NotOneLiteral
    else if x[1] == 'u' || '0' <= x[1] <= '9' || IsLineTerminator(x[1]) then NotModelled
    else Prepend(SingleEscape(x[1]), ReadScriptLiteral(x[2..]))
  }

  /** In text without a backslash, a raw `'` anywhere ends the literal before its closing quote. */
  lemma {:induction false} QuoteEndsLiteral(x: string)
    requires '\'' in x && '\\' !in x
    ensures ReadScriptLiteral(x) == NotOneLiteral
    decreases |x|
  {
    if x[0] != '\'' && x[0] != '\n' && x[0] != '\r' {
      assert x == [x[0]] + x[1..];
      QuoteEndsLiteral(x[1..]);
    }
  }

  /** A backslash in front of the apostrophe keeps it inside the literal. */
  lemma EscapedQuoteStays(a: string, b: string)
    requires '\'' !in a && '\\' !in a && '\n' !in a && '\r' !in a
    requires '\'' !in b && '\\' !in b && '\n' !in b && '\r' !in b
    ensures ReadScriptLiteral(a + "\\'" + b) == ReadsAs(a + "'" + b)
  {
    var x := a + "\\'" + b;
    assert x == a + ("\\'" + b);
    ReadPrefix(a, "\\'" + b);
    var y := "\\'" + b;
    assert y[2..] == b;
    ReadPlainLiteral(b);
    assert ReadScriptLiteral(y) == ReadsAs("'" + b);
    assert a + ("'" + b) == a + "'" + b;
  }

  /** Plain text in front of the rest reads as itself, followed by how the rest reads. */
  lemma {:induction false} ReadPrefix(a: string, t: string)
    requires '\'' !in a && '\\' !in a && '\n' !in a && '\r' !in a
    ensures ReadScriptLiteral(t).ReadsAs? ==> ReadScriptLiteral(a + t) == ReadsAs(a + ReadScriptLiteral(t).text)
    ensures !ReadScriptLiteral(t).ReadsAs? ==> ReadScriptLiteral(a + t) == ReadScriptLiteral(t)
    decreases |a|
  {
    if |a| > 0 {
      assert (a + t)[0] == a[0] && (a + t)[1..] == a[1..] + t;
      ReadPrefix(a[1..], t);
      assert a == [a[0]] + a[1..];
    } else {
      assert a + t == t;
    }
  }

  /**
    `escAttr` output in `onclick="f('…', '<escAttr(title)>')"`: for a title with
    an apostrophe and no `&` or backslash, the decoded attribute puts a raw
    `'` inside the single-quoted argument, so the argument is no longer one
    literal. The handler then either fails to parse or runs the text after
    the apostrophe as script (see `EscAttrInjects`).
   */
  lemma EscAttrBreaksHandler(title: string)
    requires '\'' in title && '&' !in title && '\\' !in title
    ensures ReadScriptLiteral(UnescapeHtml(EscAttr(title))) == NotOneLiteral
  {
    EscAttrDecodedBack(title);
    QuoteEndsLiteral(title);
  }

  /**
    The title `x'+alert(1)+'` reaches the handler unchanged, which makes its
    script `f('…', 'x'+alert(1)+'')`: it parses, and calls `alert(1)`.
   */
  lemma EscAttrInjects()
    ensures UnescapeHtml(EscAttr("x'+alert(1)+'")) == "x'+alert(1)+'"
    ensures ReadScriptLiteral(UnescapeHtml(EscAttr("x'+alert(1)+'"))) == NotOneLiteral
  {
    EscAttrBreaksHandler("x'+alert(1)+'");
    EscAttrDecodedBack("x'+alert(1)+'");
  }

  /**
    A title that escapes its own apostrophe, such as `a\'b`, is read as the
    literal `a'b`: the handler runs, and the name it receives has lost the
    backslash.
   */
  lemma EscAttrEscapedQuote(a: string, b: string)
    requires '\'' !in a && '\\' !in a && '\n' !in a && '\r' !in a && '&' !in a
    requires '\'' !in b && '\\' !in b && '\n' !in b && '\r' !in b && '&' !in b
    ensures UnescapeHtml(EscAttr(a + "\\'" + b)) == a + "\\'" + b
    ensures ReadScriptLiteral(UnescapeHtml(EscAttr(a + "\\'" + b))) == ReadsAs(a + "'" + b)
  {
    EscAttrDecodedBack(a + "\\'" + b);
    EscapedQuoteStays(a, b);
  }

  /** Text without a quote, backslash or line break is read back as itself. */
  lemma {:induction false} ReadPlainLiteral(x: string)
    requires '\'' !in x && '\\' !in x && '\n' !in x && '\r' !in x
    ensures ReadScriptLiteral(x) == ReadsAs(x)
    decreases |x|
  {
    if |x| > 0 {
      ReadPlainLiteral(x[1..]);
      assert x == [x[0]] + x[1..];
    }
  }

  /** Text `escAttr` delivers intact to a single-quoted handler argument: no `&`, quote, backslash or line break. */
  predicate SafeInHandler(s: string) {
    '&' !in s && '\'' !in s && '\\' !in s && '\n' !in s && '\r' !in s
  }

  /**
    What a handler receives from `'<escAttr(s)>'` inside a double-quoted
    attribute, for the inputs this model decodes: text without `&` comes
    back as it was, so the handler reads the title as literal text; with an
    apostrophe and no backslash it is no literal; safe text is read as itself.
   */
  lemma EscAttrArgument(s: string)
    ensures '&' !in s ==> UnescapeHtml(EscAttr(s)) == s
    ensures '&' !in s ==> ReadScriptLiteral(UnescapeHtml(EscAttr(s))) == ReadScriptLiteral(s)
    ensures '&' !in s && '\\' !in s && '\'' in s ==> ReadScriptLiteral(UnescapeHtml(EscAttr(s))) == NotOneLiteral
    ensures SafeInHandler(s) ==> ReadScriptLiteral(UnescapeHtml(EscAttr(s))) == ReadsAs(s)
  {
    if '&' !in s {
      EscAttrDecodedBack(s);
      if '\'' in s && '\\' !in s {
        QuoteEndsLiteral(s);
      } else if SafeInHandler(s) {
        ReadPlainLiteral(s);
      }
    }
  }

  /** The corrected escape of one character: a `\xHH` escape for the six characters that would break the attribute or the literal. */
  function EscScriptChar(c: char): (r: string)
    ensures '&' !in r && '\'' !in r && '"' !in r && '\n' !in r && '\r' !in r
  {
    if c == '\'' then "\\x27"
    else if c == '"' then "\\x22"
    else if c == '\\' then "\\x5c"
    else if c == '&' then "\\x26"
    else if c == '\n' then "\\x0a"
    else if c == '\r' then "\\x0d"
    else [c]
  }

  /**
    The escape the handler argument needs: every character that would end the
    literal, start an escape, start a character reference or close the
    attribute becomes a hexadecimal script escape.
   */
  function EscScript(s: string): (r: string)
    ensures '&' !in r && '\'' !in r && '"' !in r && '\n' !in r && '\r' !in r
    decreases |s|
  {
    if |s| == 0 then "" else EscScriptChar(s[0]) + EscScript(s[1..])
  }

  /** Text without `&` holds no character reference: the HTML parser leaves it as it is. */
  lemma {:induction false} UnescapeWithoutAmpersand(s: string)
    requires '&' !in s
    ensures UnescapeHtml(s) == s
    decreases |s|
  {
    if |s| > 0 {
      assert |s| >= 4 ==> s[..4][0] == s[0];
      assert |s| >= 5 ==> s[..5][0] == s[0];
      assert |s| >= 6 ==> s[..6][0] == s[0];
      assert UnescapeHtml(s) == [s[0]] + UnescapeHtml(s[1..]);
      UnescapeWithoutAmpersand(s[1..]);
      assert s == [s[0]] + s[1..];
    }
  }

  /** Reading one escaped character gives the character back. */
  lemma ReadEscapedChar(c: char, t: string)
    ensures ReadScriptLiteral(EscScriptChar(c) + t) == Prepend(c, ReadScriptLiteral(t))
  {
    var e := EscScriptChar(c);
    var x := e + t;
    assert x[..|e|] == e && x[|e|..] == t;
    if |e| == 4 {
      assert x[0] == '\\' && x[1] == 'x';
      assert 16 * HexValue(x[2]) + HexValue(x[3]) == c as int;
    } else {
      assert x[0] == c && x[1..] == t;
    }
  }

  lemma {:induction false} EscScriptRead(s: string)
    ensures ReadScriptLiteral(EscScript(s)) == ReadsAs(s)
    decreases |s|
  {
    if |s| > 0 {
      ReadEscapedChar(s[0], EscScript(s[1..]));
      EscScriptRead(s[1..]);
      assert s == [s[0]] + s[1..];
    }
  }

  /**
    Through both readings, the attribute's and the literal's, the corrected
    escape delivers exactly the original text to the handler.
   */
  lemma EscScriptRoundTrip(s: string)
    ensures ReadScriptLiteral(UnescapeHtml(EscScript(s))) == ReadsAs(s)
  {
    UnescapeWithoutAmpersand(EscScript(s));
    EscScriptRead(s);
  }
}

=== FILE: jstext.dfy ===
/**
  The slice of JavaScript string semantics the pages rely on: nullable
  strings and their truthiness, `split` on a one-character separator and its
  inverse `join`, `trim`, and the decimal rendering of a number in a
  template literal.
 */
module JsText {

  /** A string-valued JavaScript variable that may also hold `undefined` or `null`. */
  datatype JsStr = Undefined | Null | Str(s: string)

  /** JavaScript truthiness of such a value: only a non-empty string is truthy. */
  predicate Truthy(v: JsStr) {
    v.Str? && v.s != ""
  }

  /** The `x || null` idiom: a falsy value becomes `null`, a truthy one passes through. */
  function OrNull(v: JsStr): (r: JsStr)
    ensures Truthy(r) <==> Truthy(v)
    ensures r.Null? <==> !Truthy(v)
    ensures Truthy(v) ==> r == v
  {
    if Truthy(v) then v else Null
  }

  /** The `x || undefined` idiom applied to an input's string value. */
  function OrUndefined(s: string): (r: JsStr)
    ensures r.Undefined? <==> s == ""
    ensures s != "" ==> r == Str(s)
  {
    if s == "" then Undefined else Str(s)
  }

  // ---------------------------------------------------------------------
  // split / join
  // ---------------------------------------------------------------------

  /** `parts.join(sep)`. */
  function Join(parts: seq<string>, sep: char): string
    decreases |parts|
  {
    if |parts| == 0 then ""
    else if |parts| == 1 then parts[0]
    else parts[0] + [sep] + Join(parts[1..], sep)
  }

  /** `s.split(sep)` for a one-character separator: never empty, separator-free pieces that join back to `s`. */
  function Split(s: string, sep: char): (parts: seq<string>)
    ensures |parts| >= 1
    ensures forall k :: 0 <= k < |parts| ==> sep !in parts[k]
    ensures Join(parts, sep) == s
    decreases |s|
  {
    if |s| == 0 then [""]
    else
      var rest := Split(s[1..], sep);
      if s[0] == sep then
        [""] + rest
      else
        var parts := [[s[0]] + rest[0]] + rest[1..];
        assert parts[1..] == rest[1..];
        assert Join(parts, sep) == [s[0]] + Join(rest, sep);
        assert s == [s[0]] + s[1..];
        parts
  }

  /** The last piece of `s.split(sep)`, as `Array.prototype.pop` returns it. */
  function LastPiece(s: string, sep: char): (r: string)
    ensures sep !in r
  {
    var parts := Split(s, sep);
    parts[|parts| - 1]
  }

  /** Splitting a separator-free string gives it back as the only piece. */
  lemma {:induction false} SplitNoSeparator(s: string, sep: char)
    requires sep !in s
    ensures Split(s, sep) == [s]
    decreases |s|
  {
    if |s| > 0 {
      assert sep !in s[1..];
      SplitNoSeparator(s[1..], sep);
      assert s == [s[0]] + s[1..];
    }
  }

  /** A separator after a separator-free head splits off exactly that head. */
  lemma {:induction false} SplitAfterHead(head: string, sep: char, tail: string)
    requires sep !in head
    ensures Split(head + [sep] + tail, sep) == [head] + Split(tail, sep)
    decreases |head|
  {
    var s := head + [sep] + tail;
    if |head| == 0 {
      assert s[1..] == tail;
    } else {
      assert s[1..] == head[1..] + [sep] + tail;
      assert sep !in head[1..];
      SplitAfterHead(head[1..], sep, tail);
      assert head == [head[0]] + head[1..];
    }
  }

  /** `split` undoes `join` whenever no piece contains the separator. */
  lemma {:induction false} SplitJoin(parts: seq<string>, sep: char)
    requires |parts| >= 1
    requires forall k :: 0 <= k < |parts| ==> sep !in parts[k]
    ensures Split(Join(parts, sep), sep) == parts
    decreases |parts|
  {
    if |parts| == 1 {
      SplitNoSeparator(parts[0], sep);
    } else {
      SplitJoin(parts[1..], sep);
      SplitAfterHead(parts[0], sep, Join(parts[1..], sep));
      assert parts == [parts[0]] + parts[1..];
    }
  }

  /** Joining a piece in front of others puts one separator between them. */
  lemma JoinCons(head: string, rest: seq<string>, sep: char)
    ensures Join([head] + rest, sep) == if |rest| == 0 then head else head + [sep] + Join(rest, sep)
  {
    assert ([head] + rest)[1..] == rest;
  }

  lemma JoinTwo(sep: char, a: string, b: string)
    ensures Join([a, b], sep) == a + [sep] + b
  {
    JoinCons(b, [], sep);
    assert [b] == [b] + [];
    JoinCons(a, [b], sep);
    assert [a] + [b] == [a, b];
  }

  lemma JoinThree(sep: char, a: string, b: string, c: string)
    ensures Join([a, b, c], sep) == a + [sep] + b + [sep] + c
  {
    JoinTwo(sep, b, c);
    JoinCons(a, [b, c], sep);
    assert [a] + [b, c] == [a, b, c];
  }

  lemma JoinFour(sep: char, a: string, b: string, c: string, d: string)
    ensures Join([a, b, c, d], sep) == a + [sep] + b + [sep] + c + [sep] + d
  {
    JoinThree(sep, b, c, d);
    JoinCons(a, [b, c, d], sep);
    assert [a] + [b, c, d] == [a, b, c, d];
  }

  lemma JoinFive(sep: char, a: string, b: string, c: string, d: string, e: string)
    ensures Join([a, b, c, d, e], sep) == a + [sep] + b + [sep] + c + [sep] + d + [sep] + e
  {
    JoinFour(sep, b, c, d, e);
    JoinCons(a, [b, c, d, e], sep);
    assert [a] + [b, c, d, e] == [a, b, c, d, e];
  }

  /** A string holding the separator splits into at least two pieces. */
  lemma SplitAtSeparator(s: string, sep: char)
    requires sep in s
    ensures |Split(s, sep)| >= 2
  {
  }

  /** The last piece of `head + sep + tail` is the last piece of `tail`. */
  lemma {:induction false} LastPieceAfterSeparator(head: string, sep: char, tail: string)
    ensures LastPiece(head + [sep] + tail, sep) == LastPiece(tail, sep)
    decreases |head|
  {
    var s := head + [sep] + tail;
    if |head| == 0 {
      assert s[1..] == tail;
    } else {
      var s' := head[1..] + [sep] + tail;
      assert s[1..] == s';
      LastPieceAfterSeparator(head[1..], sep, tail);
      assert s'[|head| - 1] == sep;
      SplitAtSeparator(s', sep);
    }
  }

  /** A separator-free string is its own last piece. */
  lemma LastPieceNoSeparator(s: string, sep: char)
    requires sep !in s
    ensures LastPiece(s, sep) == s
  {
    SplitNoSeparator(s, sep);
  }

  // ---------------------------------------------------------------------
  // trim
  // ---------------------------------------------------------------------

  /** The characters `String.prototype.trim` strips: ECMAScript WhiteSpace and LineTerminator. */
  predicate IsSpace(c: char) {
    || c == '\t' || c == '\n' || c == '\U{000B}' || c == '\U{000C}' || c == '\r' || c == ' '
    || c == '\U{00A0}' || c == '\U{1680}' || ('\U{2000}' <= c <= '\U{200A}')
    || c == '\U{2028}' || c == '\U{2029}' || c == '\U{202F}' || c == '\U{205F}'
    || c == '\U{3000}' || c == '\U{FEFF}'
  }

  /** Number of leading spaces of `s`. */
  function LeadingSpaces(s: string): (k: nat)
    ensures k <= |s|
    ensures forall i :: 0 <= i < k ==> IsSpace(s[i])
    ensures k < |s| ==> !IsSpace(s[k])
    decreases |s|
  {
    if |s| > 0 && IsSpace(s[0]) then 1 + LeadingSpaces(s[1..]) else 0
  }

  /** Number of trailing spaces of `s`. */
  function TrailingSpaces(s: string): (k: nat)
    ensures k <= |s|
    ensures forall i :: |s| - k <= i < |s| ==> IsSpace(s[i])
    ensures k < |s| ==> !IsSpace(s[|s| - k - 1])
    decreases |s|
  {
    if |s| > 0 && IsSpace(s[|s| - 1]) then 1 + TrailingSpaces(s[..|s| - 1]) else 0
  }

  /** `s.trim()`: the slice of `s` between its leading and trailing spaces. */
  function Trim(s: string): (r: string)
    ensures |r| <= |s|
    ensures exists i ::
      && 0 <= i <= |s| - |r|
      && r == s[i..][..|r|]
      && (forall k :: 0 <= k < i ==> IsSpace(s[k]))
      && (forall k :: i + |r| <= k < |s| ==> IsSpace(s[k]))
    ensures r == "" <==> forall i :: 0 <= i < |s| ==> IsSpace(s[i])
    ensures r != "" ==> !IsSpace(r[0]) && !IsSpace(r[|r| - 1])
  {
    var lead := LeadingSpaces(s);
    var t := s[lead..];
    var r := t[..|t| - TrailingSpaces(t)];
    assert r == s[lead..][..|r|];
    assert forall k :: lead + |r| <= k < |s| ==> s[k] == t[k - lead];
    r
  }

  /** Trimming twice is trimming once. */
  lemma TrimIdempotent(s: string)
    ensures Trim(Trim(s)) == Trim(s)
  {
    var r := Trim(s);
    if r != "" {
      assert LeadingSpaces(r) == 0;
      assert TrailingSpaces(r) == 0;
      assert r[0..] == r;
      assert r[..|r|] == r;
    }
  }

  // ---------------------------------------------------------------------
  // decimal numbers
  // ---------------------------------------------------------------------

  predicate IsDigit(c: char) {
    '0' <= c <= '9'
  }

  function DigitChar(d: nat): (c: char)
    requires d < 10
    ensures IsDigit(c)
  {
    "0123456789"[d]
  }

  function DigitValue(c: char): (d: nat)
    requires IsDigit(c)
    ensures d < 10
  {
    (c as int - '0' as int) as nat
  }

  /** A natural number as a template literal renders it: decimal, without leading zeros. */
  function Decimal(n: nat): (r: string)
    ensures |r| >= 1
    ensures forall i :: 0 <= i < |r| ==> IsDigit(r[i])
    ensures r[0] == '0' ==> n == 0
    decreases n
  {
    if n < 10 then [DigitChar(n)] else Decimal(n / 10) + [DigitChar(n % 10)]
  }

  /** The value of a string of decimal digits. */
  function ParseDecimal(s: string): nat
    requires forall i :: 0 <= i < |s| ==> IsDigit(s[i])
    decreases |s|
  {
    if |s| == 0 then 0 else ParseDecimal(s[..|s| - 1]) * 10 + DigitValue(s[|s| - 1])
  }

  /** Reading a rendered number back gives the number. */
  lemma {:induction false} ParseDecimalInverse(n: nat)
    ensures ParseDecimal(Decimal(n)) == n
    decreases n
  {
    var r := Decimal(n);
    if n < 10 {
      assert r[..0] == [];
    } else {
      ParseDecimalInverse(n / 10);
      assert r[..|r| - 1] == Decimal(n / 10);
    }
  }

  /** Distinct numbers render differently. */
  lemma DecimalInjective(a: nat, b: nat)
    requires Decimal(a) == Decimal(b)
    ensures a == b
  {
    ParseDecimalInverse(a);
    ParseDecimalInverse(b);
  }
}

=== FILE: listspage.dfy ===
/**
  The task-lists page: the count label and empty state, one card per list,
  and the create, edit, delete and load flows. The page never patches its
  array of lists: every successful change is followed by a reload that
  replaces the array with what the server returns.
 */
module ListsPage {
  import opened Base
  import opened JsText
  import opened Escaping
  import opened Entities
  import opened Api
  import opened Ui

  // ---------------------------------------------------------------------
  // rendering
  // ---------------------------------------------------------------------

  /** The `listCount` text: `No lists yet`, `1 list`, or `<n> lists`. */
  function CountLabel(n: nat): (r: string)
    ensures n == 0 ==> r == "No lists yet"
    ensures n == 1 ==> r == "1 list"
    ensures n >= 2 ==> r == Decimal(n) + " lists"
  {
    if n == 0 then "No lists yet"
    else Decimal(n) + " list" + (if n != 1 then "s" else "")
  }

  /** Different numbers of lists are never given the same label. */
  lemma CountLabelInjective(a: nat, b: nat)
    requires CountLabel(a) == CountLabel(b)
    ensures a == b
  {
    var r := CountLabel(a);
    assert a == 0 <==> r[0] == 'N';
    assert b == 0 <==> CountLabel(b)[0] == 'N';
    if a != 0 {
      var da, db := Decimal(a), Decimal(b);
      assert r[|da|] == ' ';
      assert r[|db|] == ' ';
      assert forall i :: 0 <= i < |da| ==> r[i] == da[i];
      assert forall i :: 0 <= i < |db| ==> r[i] == db[i];
      assert |da| == |db|;
      assert da == r[..|da|] == db;
      DecimalInjective(a, b);
    }
  }

  /** What a card shows in place of a description. */
  datatype CardText = Described(html: string) | NoDescription

  /**
    The view model of `cardHTML`: the list id its handlers use, the escaped
    title, the description or the placeholder, and the text spliced between
    the quotes of the delete button's `openDeleteModal(id, '…')` handler.
   */
  datatype Card = Card(listId: string, titleHtml: string, description: CardText, deleteName: string)

  /**
    The card of one list, as written: the handler argument is `escAttr` of
    the title, which the attribute decoding undoes (see `EscAttrBreaksHandler`).
   */
  function CardOf(list: TaskList): (c: Card)
    ensures c.listId == list.id
    ensures c.description.NoDescription? <==> !Truthy(list.description)
    ensures c.description.Described? ==> UnescapeHtml(c.description.html) == list.description.s
    ensures UnescapeHtml(c.titleHtml) == list.title
    ensures '\'' !in c.deleteName && '"' !in c.deleteName
    ensures '&' !in list.title ==> UnescapeHtml(c.deleteName) == list.title
    ensures '&' !in list.title ==> DeleteDialogText(c.deleteName) == Quoted(ReadScriptLiteral(list.title))
    ensures '&' !in list.title && '\\' !in list.title && '\'' in list.title ==> DeleteDialogText(c.deleteName) == NotOneLiteral
    ensures SafeInHandler(list.title) ==> DeleteDialogText(c.deleteName) == ReadsAs("\"" + list.title + "\"")
  {
    EscHtmlRoundTrip(list.title);
    EscAttrArgument(list.title);
    var description :=
      if Truthy(list.description) then
        EscHtmlRoundTrip(list.description.s);
        Described(EscHtml(list.description.s))
      else NoDescription;
    Card(list.id, EscHtml(list.title), description, EscAttr(list.title))
  }

  /**
    The card with the corrected handler argument `EscScript(title)`: the
    same card otherwise, and the delete dialog names the list whatever its
    title.
   */
  function CorrectedCardOf(list: TaskList): (c: Card)
    ensures c.(deleteName := "") == CardOf(list).(deleteName := "")
    ensures '\'' !in c.deleteName && '"' !in c.deleteName && '&' !in c.deleteName
    ensures DeleteDialogText(c.deleteName) == ReadsAs("\"" + list.title + "\"")
  {
    EscScriptRoundTrip(list.title);
    CardOf(list).(deleteName := EscScript(list.title))
  }

  /** The page after `render()`: the count label, which of grid and empty state shows, and the cards. */
  datatype ListsView = ListsView(countLabel: string, emptyStateShown: bool, statsShown: bool, cards: seq<Card>)

  function Render(lists: seq<TaskList>): (v: ListsView)
    ensures v.countLabel == CountLabel(|lists|)
    ensures v.emptyStateShown <==> |lists| == 0
    ensures v.statsShown <==> !v.emptyStateShown
    ensures |v.cards| == |lists|
    ensures forall i :: 0 <= i < |lists| ==> v.cards[i] == CardOf(lists[i])
  {
    if |lists| == 0 then ListsView(CountLabel(0), true, false, [])
    else ListsView(CountLabel(|lists|), false, true, seq(|lists|, i requires 0 <= i < |lists| => CardOf(lists[i])))
  }

  /** Any list whose description is missing, `null` or empty gets the placeholder, and no other list does. */
  lemma EmptyDescriptionShowsPlaceholder(list: TaskList)
    ensures CardOf(list).description == NoDescription <==> list.description.Undefined? || list.description.Null? || list.description == Str("")
  {
  }

  /** `goToList(id)`: the address of a list's tasks page. */
  function PageUrl(id: string): (url: string)
    ensures "/task-lists/" <= url && url[|"/task-lists/"|..] == id
  {
    "/task-lists/" + id
  }

  // ---------------------------------------------------------------------
  // flows
  // ---------------------------------------------------------------------

  /** The toast `loadLists()` shows when the lists do not load. */
  function LoadFailed(message: string): Toast {
    Toast("Failed to load lists: " + message, Failure)
  }

  /** What `loadLists()` does with the reply: success replaces the array wholesale; failure keeps it and shows a toast. */
  function ListsReply(lists: seq<TaskList>, reply: Result<seq<TaskList>, string>): (r: Effect<seq<TaskList>>)
    ensures r.sent == [RequestFor(ListLists)]
    ensures reply.Ok? ==> r.state == reply.value && r.toasts == []
    ensures reply.Err? ==> r.state == lists && r.toasts == [LoadFailed(reply.error)]
  {
    match reply
    case Ok(received) => Effect(received, [RequestFor(ListLists)], [])
    case Err(message) => Effect(lists, [RequestFor(ListLists)], [LoadFailed(message)])
  }

  /** The toasts after a change went through: its own toast, then the failure toast of the reload if it failed. */
  function ThenReloadToasts(done: Toast, reload: Result<seq<TaskList>, string>): (r: seq<Toast>)
    ensures reload.Ok? ==> r == [done]
    ensures reload.Err? ==> r == [done, LoadFailed(reload.error)]
  {
    match reload
    case Ok(_) => [done]
    case Err(message) => [done, LoadFailed(message)]
  }

  /**
    `loadLists()`: the reply handled as `ListsReply` says, with the loading
    bar at 75% while the request is in flight and at 100% after either reply.
   */
  function LoadLists(bar: LoadingBar, lists: seq<TaskList>, reply: Result<seq<TaskList>, string>): (r: Loading<seq<TaskList>>)
    ensures r.effect.sent == [RequestFor(ListLists)]
    ensures reply.Ok? ==> r.effect.state == reply.value && r.effect.toasts == []
    ensures reply.Err? ==> r.effect.state == lists && r.effect.toasts == [LoadFailed(reply.error)]
    ensures bar.Bar? ==> r.waiting == Bar("75%") && r.bar == Bar("100%")
    ensures bar.NoBar? ==> r.waiting == NoBar && r.bar == NoBar
  {
    AroundLoad(bar, ListsReply(lists, reply))
  }

  /** The call `saveList` makes for a valid title: an update when a list is being edited, else a create. */
  function SaveCall(editing: JsStr, title: string, description: string): Call {
    if Truthy(editing) then UpdateList(editing.s, title, OrUndefined(description))
    else CreateList(title, OrUndefined(description))
  }

  /**
    `saveList()`: an empty trimmed title only sets the inline error; otherwise
    the create or update is sent, and on success the page reloads.
   */
  function SaveList(lists: seq<TaskList>, editing: JsStr, form: ListForm,
                    saved: Result<(), string>, reload: Result<seq<TaskList>, string>): (r: Saved<seq<TaskList>>)
    ensures Trim(form.title) == "" ==> r == Saved(TitleRequired, Effect(lists, [], []))
    ensures Trim(form.title) != "" ==> r.titleError == "" && |r.effect.sent| >= 1
    ensures Trim(form.title) != "" ==> r.effect.sent[0] == RequestFor(SaveCall(editing, Trim(form.title), Trim(form.description)))
    ensures Trim(form.title) != "" ==> (saved.Ok? <==> |r.effect.sent| == 2)
    ensures r.effect.state == lists || (reload.Ok? && r.effect.state == reload.value)
    ensures saved.Err? ==> r.effect.state == lists
    ensures Trim(form.title) != "" && saved.Ok? && reload.Ok? ==> r.effect.state == reload.value
    ensures reload.Err? ==> r.effect.state == lists
    ensures Trim(form.title) != "" && saved.Err? ==> r.effect.toasts == [Toast(saved.error, Failure)]
    ensures Trim(form.title) != "" && saved.Ok? ==>
      var done := Toast(if Truthy(editing) then "List updated successfully" else "List created!", Success);
      && (reload.Ok? ==> r.effect.toasts == [done])
      && (reload.Err? ==> r.effect.toasts == [done, LoadFailed(reload.error)])
  {
    var title := Trim(form.title);
    var description := Trim(form.description);
    if title == "" then Saved(TitleRequired, Effect(lists, [], []))
    else
      var request := RequestFor(SaveCall(editing, title, description));
      match saved
      case Err(message) => Saved("", Effect(lists, [request], [Toast(message, Failure)]))
      case Ok(_) =>
        var done := Toast(if Truthy(editing) then "List updated successfully" else "List created!", Success);
        var loaded := ListsReply(lists, reload);
        Saved("", Effect(loaded.state, [request] + loaded.sent, ThenReloadToasts(done, reload)))
  }

  /** A blank or whitespace-only description is sent as an absent key, never as an empty string. */
  lemma BlankDescriptionOmitted(lists: seq<TaskList>, editing: JsStr, form: ListForm,
                                saved: Result<(), string>, reload: Result<seq<TaskList>, string>)
    requires Trim(form.title) != ""
    ensures SaveList(lists, editing, form, saved, reload).effect.sent[0].body.value.description.Undefined?
        <==> Trim(form.description) == ""
  {
  }

  /** A list is created with a POST and edited with a PUT that names it in the path and the body. */
  lemma SaveListVerb(lists: seq<TaskList>, editing: JsStr, form: ListForm,
                     saved: Result<(), string>, reload: Result<seq<TaskList>, string>)
    requires Trim(form.title) != ""
    ensures var request := SaveList(lists, editing, form, saved, reload).effect.sent[0];
      && (request.verb == PUT <==> Truthy(editing))
      && (request.verb == POST <==> !Truthy(editing))
      && request.body.Some? && request.body.value.ListPayload?
      && request.body.value.title == Trim(form.title)
      && (Truthy(editing) ==> request.body.value.listId == Some(editing.s))
      && (Truthy(editing) && '/' !in editing.s ==> ParseRoute(request.path) == Some(ListAt(editing.s)))
  {
  }

  /** `confirmDelete()`: with a list chosen, deletes it and on success reloads. */
  function ConfirmDelete(lists: seq<TaskList>, deleting: JsStr,
                         deleted: Result<(), string>, reload: Result<seq<TaskList>, string>): (r: Effect<seq<TaskList>>)
    ensures !Truthy(deleting) ==> r == Effect(lists, [], [])
    ensures Truthy(deleting) ==> |r.sent| >= 1 && r.sent[0] == RequestFor(DeleteList(deleting.s))
    ensures Truthy(deleting) ==> (deleted.Ok? <==> |r.sent| == 2)
    ensures r.state == lists || (reload.Ok? && r.state == reload.value)
    ensures deleted.Err? ==> r.state == lists
    ensures Truthy(deleting) && deleted.Ok? && reload.Ok? ==> r.state == reload.value
    ensures reload.Err? ==> r.state == lists
    ensures Truthy(deleting) && deleted.Err? ==> r.toasts == [Toast(deleted.error, Failure)]
    ensures Truthy(deleting) && deleted.Ok? && reload.Ok? ==> r.toasts == [Toast("List deleted", Success)]
    ensures Truthy(deleting) && deleted.Ok? && reload.Err? ==>
      r.toasts == [Toast("List deleted", Success), LoadFailed(reload.error)]
  {
    if !Truthy(deleting) then Effect(lists, [], [])
    else
      var request := RequestFor(DeleteList(deleting.s));
      match deleted
      case Err(message) => Effect(lists, [request], [Toast(message, Failure)])
      case Ok(_) =>
        var loaded := ListsReply(lists, reload);
        var done := Toast("List deleted", Success);
        Effect(loaded.state, [request] + loaded.sent, ThenReloadToasts(done, reload))
  }

  /**
    Lists are never edited in place: after any create, update or delete the
    array is either what it was or exactly what the reload returned, and a
    successful change is always followed by the reload request.
   */
  lemma NeverPatched(lists: seq<TaskList>, editing: JsStr, deleting: JsStr, form: ListForm,
                     result: Result<(), string>, reload: Result<seq<TaskList>, string>)
    ensures var save := SaveList(lists, editing, form, result, reload).effect;
      && save.state in {lists} + (if reload.Ok? then {reload.value} else {})
      && (|save.sent| == 2 ==> save.sent[1] == RequestFor(ListLists))
    ensures var delete := ConfirmDelete(lists, deleting, result, reload);
      && delete.state in {lists} + (if reload.Ok? then {reload.value} else {})
      && (|delete.sent| == 2 ==> delete.sent[1] == RequestFor(ListLists))
  {
  }
}

=== FILE: seqs.dfy ===
/**
  The array operations the pages use, over immutable sequences:
  `Array.prototype.filter`, `findIndex` and in-place replacement.
 */
module Seqs {
  import opened Base

  /**
    `s.filter(p)`: keeps every element that satisfies `p`, as many times as it
    occurs, and drops every other one.
   */
  function Keep<T(==,!new)>(s: seq<T>, p: T -> bool): (r: seq<T>)
    ensures |r| <= |s|
    ensures forall x :: multiset(r)[x] == if p(x) then multiset(s)[x] else 0
    ensures forall k :: 0 <= k < |r| ==> p(r[k])
    decreases |s|
  {
    if |s| == 0 then []
    else
      assert s == [s[0]] + s[1..];
      if p(s[0]) then [s[0]] + Keep(s[1..], p) else Keep(s[1..], p)
  }

  /** `r` can be obtained from `s` by deleting elements, keeping the order of the rest. */
  predicate IsSubsequence<T(==)>(r: seq<T>, s: seq<T>)
    decreases |s|
  {
    if |r| == 0 then true
    else if |s| == 0 then false
    else if r[0] == s[0] then IsSubsequence(r[1..], s[1..])
    else IsSubsequence(r, s[1..])
  }

  /** Filtering keeps the survivors in their original order. */
  lemma {:induction false} KeepIsSubsequence<T(!new)>(s: seq<T>, p: T -> bool)
    ensures IsSubsequence(Keep(s, p), s)
    decreases |s|
  {
    if |s| > 0 {
      KeepIsSubsequence(s[1..], p);
      var rest := Keep(s[1..], p);
      if p(s[0]) {
        assert ([s[0]] + rest)[1..] == rest;
      }
    }
  }

  /** A filter that every element passes is the identity. */
  lemma {:induction false} KeepEverything<T(!new)>(s: seq<T>, p: T -> bool)
    requires forall k :: 0 <= k < |s| ==> p(s[k])
    ensures Keep(s, p) == s
    decreases |s|
  {
    if |s| > 0 {
      KeepEverything(s[1..], p);
      assert s == [s[0]] + s[1..];
    }
  }

  /** When every element passes exactly one of two filters, their sizes add up to the whole. */
  lemma {:induction false} KeepPartition<T(!new)>(s: seq<T>, p: T -> bool, q: T -> bool)
    requires forall k :: 0 <= k < |s| ==> p(s[k]) != q(s[k])
    ensures |Keep(s, p)| + |Keep(s, q)| == |s|
    decreases |s|
  {
    if |s| > 0 {
      KeepPartition(s[1..], p, q);
    }
  }

  /** Two filters that no element passes together never keep more than the whole. */
  lemma {:induction false} KeepDisjoint<T(!new)>(s: seq<T>, p: T -> bool, q: T -> bool)
    requires forall k :: 0 <= k < |s| ==> !(p(s[k]) && q(s[k]))
    ensures |Keep(s, p)| + |Keep(s, q)| <= |s|
    decreases |s|
  {
    if |s| > 0 {
      KeepDisjoint(s[1..], p, q);
    }
  }

  /** Number of elements satisfying `p` (`s.filter(p).length`). */
  function CountWhere<T(==,!new)>(s: seq<T>, p: T -> bool): nat {
    |Keep(s, p)|
  }

  /** Replacing one element changes the count by what the old and new element contribute. */
  lemma {:induction false} CountAfterUpdate<T(!new)>(s: seq<T>, i: nat, y: T, p: T -> bool)
    requires i < |s|
    ensures CountWhere(s[i := y], p) + (if p(s[i]) then 1 else 0)
         == CountWhere(s, p) + (if p(y) then 1 else 0)
    decreases |s|
  {
    var t := s[i := y];
    if i > 0 {
      CountAfterUpdate(s[1..], i - 1, y, p);
      assert t[1..] == s[1..][i - 1 := y];
      assert t[0] == s[0];
    } else {
      assert t[1..] == s[1..];
    }
  }

  /**
    `s.findIndex(p)`, with JavaScript's `-1` written as `None`: the first
    position whose element satisfies `p`.
   */
  function IndexWhere<T>(s: seq<T>, p: T -> bool): (r: Option<nat>)
    ensures r.None? <==> forall k :: 0 <= k < |s| ==> !p(s[k])
    ensures r.Some? ==> r.value < |s| && p(s[r.value])
    ensures r.Some? ==> forall k :: 0 <= k < r.value ==> !p(s[k])
    decreases |s|
  {
    if |s| == 0 then None
    else if p(s[0]) then Some(0)
    else
      match IndexWhere(s[1..], p)
      case None => None
      case Some(k) => Some(k + 1)
  }
}

=== FILE: taskspage.dfy ===
/**
  The tasks page of one list: boot from the URL, the filter and the stats
  chips, the optimistic status toggle with its rollback, and the create,
  edit and delete flows. Unlike the lists page, this page patches its array
  of tasks in place from each server reply.
 */
module TasksPage {
  import opened Base
  import opened JsText
  import opened Seqs
  import opened Escaping
  import opened Entities
  import opened Api
  import opened Ui
  import ListsPage

  // ---------------------------------------------------------------------
  // boot
  // ---------------------------------------------------------------------

  datatype Boot = RedirectToIndex | LoadPage(listId: string)

  /** `init()`: the list id is the last `/`-separated piece of the path; when it is empty the page leaves for the index. */
  function BootFrom(pathname: string): (b: Boot)
    ensures b.RedirectToIndex? <==> LastPiece(pathname, '/') == ""
    ensures b.LoadPage? ==> b.listId == LastPiece(pathname, '/') && b.listId != "" && '/' !in b.listId
  {
    var id := LastPiece(pathname, '/');
    if id == "" then RedirectToIndex else LoadPage(id)
  }

  /** The two requests a loaded page starts with: the list itself and its tasks. */
  function BootRequests(listId: string): (r: seq<Request>)
    ensures |r| == 2 && r[0].verb == GET && r[1].verb == GET
    ensures '/' !in listId ==> ParseRoute(r[0].path) == Some(ListAt(listId)) && ParseRoute(r[1].path) == Some(TasksOf(listId))
  {
    [RequestFor(GetList(listId)), RequestFor(ListTasks(listId))]
  }

  /** The address a list card leads to boots this page on that list. */
  lemma BootOnListPage(id: string)
    requires id != "" && '/' !in id
    ensures BootFrom(ListsPage.PageUrl(id)) == LoadPage(id)
  {
    assert "/task-lists/" + id == "/task-lists" + ['/'] + id;
    LastPieceAfterSeparator("/task-lists", '/', id);
    LastPieceNoSeparator(id, '/');
  }

  /** A path ending in `/` has an empty last piece, so the page redirects. */
  lemma BootTrailingSlash(prefix: string)
    ensures BootFrom(prefix + "/") == RedirectToIndex
  {
    assert prefix + "/" == prefix + ['/'] + "";
    LastPieceAfterSeparator(prefix, '/', "");
    LastPieceNoSeparator("", '/');
  }

  /**
    `loadList()`: success stores what the server sent, which is `None` for a
    2xx reply without a JSON body (the header then stays as it was); failure
    keeps what was there and shows a toast.
   */
  function LoadList(current: Option<TaskList>, listId: string, reply: Result<Option<TaskList>, string>): (r: Effect<Option<TaskList>>)
    ensures r.sent == [RequestFor(GetList(listId))]
    ensures reply.Ok? ==> r.state == reply.value && r.toasts == []
    ensures reply.Err? ==> r.state == current && r.toasts == [Toast("Failed to load list info: " + reply.error, Failure)]
  {
    match reply
    case Ok(list) => Effect(list, [RequestFor(GetList(listId))], [])
    case Err(message) => Effect(current, [RequestFor(GetList(listId))], [Toast("Failed to load list info: " + message, Failure)])
  }

  /**
    `loadTasks()`: success replaces the array; failure keeps it and shows a
    toast. The loading bar is at 75% while the request is in flight and at
    100% after either reply.
   */
  function LoadTasks(bar: LoadingBar, tasks: seq<Task>, listId: string, reply: Result<seq<Task>, string>): (r: Loading<seq<Task>>)
    ensures r.effect.sent == [RequestFor(ListTasks(listId))]
    ensures reply.Ok? ==> r.effect.state == reply.value && r.effect.toasts == []
    ensures reply.Err? ==> r.effect.state == tasks && r.effect.toasts == [Toast("Failed to load tasks: " + reply.error, Failure)]
    ensures bar.Bar? ==> r.waiting == Bar("75%") && r.bar == Bar("100%")
    ensures bar.NoBar? ==> r.waiting == NoBar && r.bar == NoBar
  {
    var effect :=
      match reply
      case Ok(received) => Effect(received, [RequestFor(ListTasks(listId))], [])
      case Err(message) => Effect(tasks, [RequestFor(ListTasks(listId))], [Toast("Failed to load tasks: " + message, Failure)]);
    AroundLoad(bar, effect)
  }

  /** The header texts `renderListHeader` writes: the document title and the description line. */
  datatype Header = Header(documentTitle: string, heading: string, description: string)

  function HeaderOf(list: TaskList): (h: Header)
    ensures h.heading == list.title
    ensures "TaskFlow — " <= h.documentTitle && h.documentTitle[|"TaskFlow — "|..] == list.title
    ensures h.description == "" <==> !Truthy(list.description)
    ensures Truthy(list.description) ==> h.description == list.description.s
  {
    Header("TaskFlow — " + list.title, list.title, if Truthy(list.description) then list.description.s else "")
  }

  // ---------------------------------------------------------------------
  // filter and stats
  // ---------------------------------------------------------------------

  /** The filter predicate of `renderTasks`: ALL and any unknown filter show everything. */
  predicate Shows(filter: string, t: Task) {
    if filter == "ALL" then true
    else if filter == OPEN then t.status == OPEN
    else if filter == CLOSED then t.status == CLOSED
    else true
  }

  function ShowsUnder(filter: string): Task -> bool {
    t => Shows(filter, t)
  }

  /** The tasks `renderTasks` shows under a filter, in array order. */
  function Visible(tasks: seq<Task>, filter: string): (r: seq<Task>)
    ensures IsSubsequence(r, tasks)
    ensures filter != OPEN && filter != CLOSED ==> r == tasks
    ensures filter == OPEN || filter == CLOSED ==>
      forall t :: multiset(r)[t] == if t.status == filter then multiset(tasks)[t] else 0
  {
    KeepIsSubsequence(tasks, ShowsUnder(filter));
    assert filter != OPEN && filter != CLOSED ==> Keep(tasks, ShowsUnder(filter)) == tasks by {
      if filter != OPEN && filter != CLOSED {
        KeepEverything(tasks, ShowsUnder(filter));
      }
    }
    Keep(tasks, ShowsUnder(filter))
  }

  /** The list area: the shown tasks, or the empty state when none passes the filter. */
  datatype TasksView = TasksView(items: seq<TaskItem>, emptyStateShown: bool)

  /**
    The view model of `taskItemHTML`; `deleteName` is the text spliced between
    the quotes of the delete button's `openDeleteTaskModal(id, '…')` handler.
   */
  datatype TaskItem = TaskItem(taskId: string, completed: bool, titleHtml: string, description: Option<string>,
                               priorityText: string, statusText: string, dueText: string, deleteName: string)

  /**
    The item of one task, as written: the handler argument is `escAttr` of
    the title, which the attribute decoding undoes (see `EscAttrBreaksHandler`).
   */
  function ItemOf(task: Task): (item: TaskItem)
    ensures item.taskId == task.id
    ensures item.completed <==> task.status == CLOSED
    ensures UnescapeHtml(item.titleHtml) == task.title
    ensures item.description.None? <==> !Truthy(task.description)
    ensures item.description.Some? ==> UnescapeHtml(item.description.value) == task.description.s
    ensures item.dueText == "" <==> !Truthy(task.dueDate)
    ensures item.priorityText == PriorityLabel(task.priority)
    ensures item.statusText == StatusLabel(task.status)
    ensures item.dueText == DateTag(task.dueDate)
    ensures '\'' !in item.deleteName && '"' !in item.deleteName
    ensures '&' !in task.title ==> UnescapeHtml(item.deleteName) == task.title
    ensures '&' !in task.title ==> DeleteDialogText(item.deleteName) == Quoted(ReadScriptLiteral(task.title))
    ensures '&' !in task.title && '\\' !in task.title && '\'' in task.title ==> DeleteDialogText(item.deleteName) == NotOneLiteral
    ensures SafeInHandler(task.title) ==> DeleteDialogText(item.deleteName) == ReadsAs("\"" + task.title + "\"")
  {
    EscHtmlRoundTrip(task.title);
    EscAttrArgument(task.title);
    var description :=
      if Truthy(task.description) then
        EscHtmlRoundTrip(task.description.s);
        Some(EscHtml(task.description.s))
      else None;
    TaskItem(task.id, task.status == CLOSED, EscHtml(task.title), description,
             PriorityLabel(task.priority), StatusLabel(task.status), DateTag(task.dueDate),
             EscAttr(task.title))
  }

  /**
    The item with the corrected handler argument `EscScript(title)`: the
    same item otherwise, and the delete dialog names the task whatever its
    title.
   */
  function CorrectedItemOf(task: Task): (item: TaskItem)
    ensures item.(deleteName := "") == ItemOf(task).(deleteName := "")
    ensures '\'' !in item.deleteName && '"' !in item.deleteName && '&' !in item.deleteName
    ensures DeleteDialogText(item.deleteName) == ReadsAs("\"" + task.title + "\"")
  {
    EscScriptRoundTrip(task.title);
    ItemOf(task).(deleteName := EscScript(task.title))
  }

  function RenderTasks(tasks: seq<Task>, filter: string): (v: TasksView)
    ensures v.emptyStateShown <==> Visible(tasks, filter) == []
    ensures |v.items| == |Visible(tasks, filter)|
    ensures forall k :: 0 <= k < |v.items| ==> v.items[k] == ItemOf(Visible(tasks, filter)[k])
  {
    var shown := Visible(tasks, filter);
    if |shown| == 0 then TasksView([], true)
    else TasksView(seq(|shown|, k requires 0 <= k < |shown| => ItemOf(shown[k])), false)
  }

  /** A closed task is drawn as completed, but its status tag shows the raw `CLOSED`: the labels know only OPEN and COMPLETE. */
  lemma ClosedTaskItem(task: Task)
    requires task.status == CLOSED
    ensures ItemOf(task).completed && ItemOf(task).statusText == "CLOSED"
  {
    TaskStatusTags();
  }

  /** The three stats chips, counted over the whole array whatever the filter. */
  datatype Stats = Stats(total: nat, open: nat, done: nat)

  function StatsOf(tasks: seq<Task>): (st: Stats)
    ensures st.total == |tasks|
    ensures st.open + st.done <= st.total
    ensures (forall k :: 0 <= k < |tasks| ==> tasks[k].status == OPEN || tasks[k].status == CLOSED) ==>
      st.open + st.done == st.total
  {
    KeepDisjoint(tasks, ShowsUnder(OPEN), ShowsUnder(CLOSED));
    assert (forall k :: 0 <= k < |tasks| ==> tasks[k].status == OPEN || tasks[k].status == CLOSED) ==>
      |Visible(tasks, OPEN)| + |Visible(tasks, CLOSED)| == |tasks| by {
      if forall k :: 0 <= k < |tasks| ==> tasks[k].status == OPEN || tasks[k].status == CLOSED {
        KeepPartition(tasks, ShowsUnder(OPEN), ShowsUnder(CLOSED));
      }
    }
    Stats(|tasks|, |Visible(tasks, OPEN)|, |Visible(tasks, CLOSED)|)
  }

  /** The open and done chips count exactly the tasks the OPEN and CLOSED filters show. */
  lemma StatsMatchFilters(tasks: seq<Task>, t: Task)
    ensures StatsOf(tasks).open == |Visible(tasks, OPEN)| && StatsOf(tasks).done == |Visible(tasks, CLOSED)|
    ensures t.status == OPEN ==> multiset(Visible(tasks, OPEN))[t] == multiset(tasks)[t]
    ensures t.status != OPEN ==> multiset(Visible(tasks, OPEN))[t] == 0
  {
  }

  // ---------------------------------------------------------------------
  // optimistic toggle
  // ---------------------------------------------------------------------

  /** The status a toggle moves to: OPEN becomes CLOSED, anything else becomes OPEN. */
  function Flip(status: string): (r: string)
    ensures r == OPEN || r == CLOSED
    ensures status == OPEN || status == CLOSED ==> r != status
  {
    if status == OPEN then CLOSED else OPEN
  }

  /** On the two known statuses, flipping twice is the identity; any other status comes back as CLOSED. */
  lemma FlipTwice(status: string)
    ensures status == OPEN || status == CLOSED ==> Flip(Flip(status)) == status
    ensures status != OPEN && status != CLOSED ==> Flip(Flip(status)) == CLOSED
  {
  }

  function HasId(id: string): Task -> bool {
    (t: Task) => t.id == id
  }

  function OtherThan(id: string): Task -> bool {
    (t: Task) => t.id != id
  }

  /** `tasks.find` / `tasks.findIndex` by id: the first task with that id. */
  function FindTask(tasks: seq<Task>, id: string): (r: Option<nat>)
    ensures r.None? <==> forall k :: 0 <= k < |tasks| ==> tasks[k].id != id
    ensures r.Some? ==> r.value < |tasks| && tasks[r.value].id == id
    ensures r.Some? ==> forall k :: 0 <= k < r.value ==> tasks[k].id != id
  {
    IndexWhere(tasks, HasId(id))
  }

  /** The fields `toggleTask` sends: the task as it is, with the new status. */
  function FieldsOf(task: Task, status: string): TaskFields {
    TaskFields(task.id, task.title, task.description, task.dueDate, task.priority, status)
  }

  /** Where a toggle stands: not started, waiting on the server, or settled one way or the other. */
  datatype Toggle =
    | Idle
    | Pending(id: string, index: nat, newStatus: string)
    | Committed(server: Task)
    | RolledBack(restored: string)

  datatype ToggleStep = ToggleStep(effect: Effect<seq<Task>>, toggle: Toggle)

  /**
    The synchronous half of `toggleTask(id)`: the first task with that id gets
    the flipped status at once and the update is sent; an unknown id does nothing.
   */
  function BeginToggle(tasks: seq<Task>, listId: string, id: string): (r: ToggleStep)
    ensures FindTask(tasks, id).None? ==> r == ToggleStep(Effect(tasks, [], []), Idle)
    ensures FindTask(tasks, id).Some? ==>
      var i := FindTask(tasks, id).value;
      && r.toggle == Pending(id, i, Flip(tasks[i].status))
      && |r.effect.state| == |tasks|
      && (forall k :: 0 <= k < |tasks| && k != i ==> r.effect.state[k] == tasks[k])
      && r.effect.state[i].(status := tasks[i].status) == tasks[i]
      && r.effect.state[i].status != tasks[i].status
      && r.effect.state[i].status == Flip(tasks[i].status)
      && r.effect.sent == [RequestFor(UpdateTask(listId, id, FieldsOf(tasks[i], Flip(tasks[i].status))))]
      && r.effect.toasts == []
  {
    match FindTask(tasks, id)
    case None => ToggleStep(Effect(tasks, [], []), Idle)
    case Some(i) =>
      var newStatus := Flip(tasks[i].status);
      ToggleStep(Effect(tasks[i := tasks[i].(status := newStatus)],
                        [RequestFor(UpdateTask(listId, id, FieldsOf(tasks[i], newStatus)))], []),
                 Pending(id, i, newStatus))
  }

  /**
    The asynchronous half: on success the first task with the id is replaced
    by the server's copy; on failure the toggled task's status is set to the
    flip of the new status and a toast is shown.
   */
  function SettleToggle(step: ToggleStep, reply: Result<Task, string>): (r: ToggleStep)
    requires step.toggle.Pending? && step.toggle.index < |step.effect.state|
    ensures |r.effect.state| == |step.effect.state|
    ensures r.effect.sent == step.effect.sent
    ensures reply.Ok? ==> r.toggle == Committed(reply.value) && r.effect.toasts == step.effect.toasts
    ensures reply.Ok? ==> var found := FindTask(step.effect.state, step.toggle.id);
      && (found.Some? ==> r.effect.state == step.effect.state[found.value := reply.value])
      && (found.None? ==> r.effect.state == step.effect.state)
    ensures reply.Err? ==> r.toggle == RolledBack(Flip(step.toggle.newStatus))
    ensures reply.Err? ==> r.effect.toasts == step.effect.toasts + [Toast("Failed to update task: " + reply.error, Failure)]
    ensures reply.Err? ==> var i := step.toggle.index;
      && r.effect.state[i] == step.effect.state[i].(status := Flip(step.toggle.newStatus))
      && forall k :: 0 <= k < |r.effect.state| && k != i ==> r.effect.state[k] == step.effect.state[k]
  {
    var tasks := step.effect.state;
    match reply
    case Ok(updated) =>
      var after := match FindTask(tasks, step.toggle.id)
        case Some(idx) => tasks[idx := updated]
        case None => tasks;
      ToggleStep(Effect(after, step.effect.sent, step.effect.toasts), Committed(updated))
    case Err(message) =>
      var i := step.toggle.index;
      var restored := Flip(step.toggle.newStatus);
      ToggleStep(Effect(tasks[i := tasks[i].(status := restored)], step.effect.sent,
                        step.effect.toasts + [Toast("Failed to update task: " + message, Failure)]),
                 RolledBack(restored))
  }

  /** The whole `toggleTask(id)`: begin, then settle with the server's reply. */
  function ToggleTask(tasks: seq<Task>, listId: string, id: string, reply: Result<Task, string>): (r: ToggleStep)
    ensures FindTask(tasks, id).None? ==> r.effect == Effect(tasks, [], [])
  {
    var begun := BeginToggle(tasks, listId, id);
    if begun.toggle.Pending? then SettleToggle(begun, reply) else begun
  }

  /**
    Whatever the server answers, the toggled task ends as the server's copy
    or, after a failure, with its status put back; no other task changes.
   */
  lemma ToggleSettles(tasks: seq<Task>, listId: string, id: string, reply: Result<Task, string>)
    requires FindTask(tasks, id).Some?
    ensures var i := FindTask(tasks, id).value;
      && (reply.Ok? ==> ToggleTask(tasks, listId, id, reply).effect.state == tasks[i := reply.value])
      && (reply.Err? && (tasks[i].status == OPEN || tasks[i].status == CLOSED) ==>
            ToggleTask(tasks, listId, id, reply).effect.state == tasks)
      && (reply.Err? && tasks[i].status != OPEN && tasks[i].status != CLOSED ==>
            ToggleTask(tasks, listId, id, reply).effect.state == tasks[i := tasks[i].(status := CLOSED)])
  {
  }

  /** Toggling an open task moves one task from the open chip to the done chip before the server answers. */
  lemma OptimisticStats(tasks: seq<Task>, listId: string, id: string)
    requires FindTask(tasks, id).Some? && tasks[FindTask(tasks, id).value].status == OPEN
    ensures var after := StatsOf(BeginToggle(tasks, listId, id).effect.state);
      && after.total == StatsOf(tasks).total
      && after.done == StatsOf(tasks).done + 1
      && after.open + 1 == StatsOf(tasks).open
  {
    var i := FindTask(tasks, id).value;
    var optimistic := BeginToggle(tasks, listId, id).effect.state;
    var y := tasks[i].(status := CLOSED);
    assert optimistic == tasks[i := y];
    CountAfterUpdate(tasks, i, y, ShowsUnder(CLOSED));
    CountAfterUpdate(tasks, i, y, ShowsUnder(OPEN));
  }

  // ---------------------------------------------------------------------
  // create and edit
  // ---------------------------------------------------------------------

  /**
    The inputs the task dialog's save reads: title, description, due date,
    priority, and the status select. Editing reads the due date and priority
    from `taskDueDateEdit` and `taskPriorityEdit`, creating reads them from
    `taskDueDate` and `taskPriority`; `dueDate` and `priority` stand for
    whichever pair the branch taken reads, and `status` is read only when
    editing.
   */
  datatype TaskForm = TaskForm(title: string, description: string, dueDate: string, priority: string, status: string)

  /** The call `saveTask` makes for a valid title: an update of the task being edited, or a create. */
  function SaveTaskCall(listId: string, editing: JsStr, title: string, description: string, form: TaskForm): Call {
    if Truthy(editing) then
      UpdateTask(listId, editing.s, TaskFields(editing.s, title, OrNull(Str(description)), OrNull(Str(form.dueDate)),
                                               form.priority, form.status))
    else CreateTask(listId, title, OrNull(Str(description)), OrNull(Str(form.dueDate)), form.priority)
  }

  /**
    `saveTask()`: an empty trimmed title only sets the inline error. Otherwise
    the call is sent; a created task is appended, an edited one replaces the
    first task with its id, and a failure leaves the array alone.
   */
  function SaveTask(tasks: seq<Task>, listId: string, editing: JsStr, form: TaskForm,
                    reply: Result<Task, string>): (r: Saved<seq<Task>>)
    ensures Trim(form.title) == "" ==> r == Saved(TitleRequired, Effect(tasks, [], []))
    ensures Trim(form.title) != "" ==>
      && r.titleError == ""
      && r.effect.sent == [RequestFor(SaveTaskCall(listId, editing, Trim(form.title), Trim(form.description), form))]
    ensures reply.Err? ==> r.effect.state == tasks
    ensures Trim(form.title) != "" && reply.Err? ==> r.effect.toasts == [Toast(reply.error, Failure)]
    ensures Trim(form.title) != "" && reply.Ok? && !Truthy(editing) ==> r.effect.state == tasks + [reply.value]
    ensures Trim(form.title) != "" && reply.Ok? && Truthy(editing) ==>
      && |r.effect.state| == |tasks|
      && (FindTask(tasks, editing.s).None? ==> r.effect.state == tasks)
      && (FindTask(tasks, editing.s).Some? ==> r.effect.state == tasks[FindTask(tasks, editing.s).value := reply.value])
  {
    var title := Trim(form.title);
    var description := Trim(form.description);
    if title == "" then Saved(TitleRequired, Effect(tasks, [], []))
    else
      var request := RequestFor(SaveTaskCall(listId, editing, title, description, form));
      match reply
      case Err(message) => Saved("", Effect(tasks, [request], [Toast(message, Failure)]))
      case Ok(task) =>
        if Truthy(editing) then
          var after := match FindTask(tasks, editing.s)
            case Some(idx) => tasks[idx := task]
            case None => tasks;
          Saved("", Effect(after, [request], [Toast("Task updated!", Success)]))
        else Saved("", Effect(tasks + [task], [request], [Toast("Task created!", Success)]))
  }

  /**
    What `saveTask` puts on the wire: a trimmed non-empty title, `null` for a
    blank description or due date, a due date that carries a time, and for an
    edit the task id and the chosen status.
   */
  lemma SaveTaskPayload(tasks: seq<Task>, listId: string, editing: JsStr, form: TaskForm, reply: Result<Task, string>)
    requires Trim(form.title) != ""
    ensures var body := SaveTask(tasks, listId, editing, form, reply).effect.sent[0].body;
      && body.Some? && body.value.TaskPayload?
      && body.value.title == Trim(form.title)
      && !IsSpace(body.value.title[0]) && !IsSpace(body.value.title[|body.value.title| - 1])
      && (body.value.description.Null? <==> Trim(form.description) == "")
      && (Trim(form.description) != "" ==> body.value.description == Str(Trim(form.description)))
      && (body.value.dueDate.Null? <==> form.dueDate == "")
      && (form.dueDate != "" ==> body.value.dueDate == DueDateForServer(Str(form.dueDate)))
      && (body.value.dueDate.Str? ==> 'T' in body.value.dueDate.s)
      && DateTag(body.value.dueDate) == DateTag(Str(form.dueDate))
      && body.value.priority == form.priority
      && (Truthy(editing) ==> body.value.taskId == Some(editing.s) && body.value.status == Some(form.status))
      && (!Truthy(editing) ==> body.value.taskId.None? && body.value.status.None?)
  {
    var call := SaveTaskCall(listId, editing, Trim(form.title), Trim(form.description), form);
    assert SaveTask(tasks, listId, editing, form, reply).effect.sent[0] == RequestFor(call);
    SaveTaskCallBody(listId, editing, Trim(form.title), Trim(form.description), form);
  }

  /** The body of the call `saveTask` makes, for any title and description text. */
  lemma SaveTaskCallBody(listId: string, editing: JsStr, title: string, description: string, form: TaskForm)
    ensures var body := BodyOf(SaveTaskCall(listId, editing, title, description, form));
      && body.Some? && body.value.TaskPayload?
      && body.value.title == title
      && (body.value.description.Null? <==> description == "")
      && (description != "" ==> body.value.description == Str(description))
      && (body.value.dueDate.Null? <==> form.dueDate == "")
      && (form.dueDate != "" ==> body.value.dueDate == DueDateForServer(Str(form.dueDate)))
      && (body.value.dueDate.Str? ==> 'T' in body.value.dueDate.s)
      && DateTag(body.value.dueDate) == DateTag(Str(form.dueDate))
      && body.value.priority == form.priority
      && (Truthy(editing) ==> body.value.taskId == Some(editing.s) && body.value.status == Some(form.status))
      && (!Truthy(editing) ==> body.value.taskId.None? && body.value.status.None?)
  {
    var due := OrNull(Str(form.dueDate));
    assert DateTag(due) == DateTag(Str(form.dueDate)) by {
      if form.dueDate != "" {
        assert due == Str(form.dueDate);
      }
    }
    DateTagOfSentDueDate(due);
  }

  // ---------------------------------------------------------------------
  // delete
  // ---------------------------------------------------------------------

  /** `confirmDeleteTask()`: on success every task with the deleted id leaves the array, and nothing else does. */
  function ConfirmDeleteTask(tasks: seq<Task>, listId: string, deleting: JsStr, reply: Result<(), string>): (r: Effect<seq<Task>>)
    ensures !Truthy(deleting) ==> r == Effect(tasks, [], [])
    ensures Truthy(deleting) ==> r.sent == [RequestFor(DeleteTask(listId, deleting.s))]
    ensures reply.Err? ==> r.state == tasks
    ensures Truthy(deleting) && reply.Ok? ==>
      && IsSubsequence(r.state, tasks)
      && (forall k :: 0 <= k < |r.state| ==> r.state[k].id != deleting.s)
      && (forall t :: multiset(r.state)[t] == if t.id == deleting.s then 0 else multiset(tasks)[t])
    ensures Truthy(deleting) && reply.Err? ==> r.toasts == [Toast(reply.error, Failure)]
    ensures Truthy(deleting) && reply.Ok? ==> r.toasts == [Toast("Task deleted", Success)]
  {
    if !Truthy(deleting) then Effect(tasks, [], [])
    else
      var request := RequestFor(DeleteTask(listId, deleting.s));
      match reply
      case Err(message) => Effect(tasks, [request], [Toast(message, Failure)])
      case Ok(_) =>
        KeepIsSubsequence(tasks, OtherThan(deleting.s));
        Effect(Keep(tasks, OtherThan(deleting.s)), [request], [Toast("Task deleted", Success)])
  }

  /** Deleting an id no task has leaves the array as it was. */
  lemma DeleteUnknownId(tasks: seq<Task>, listId: string, id: string, reply: Result<(), string>)
    requires id != "" && FindTask(tasks, id).None?
    ensures ConfirmDeleteTask(tasks, listId, Str(id), reply).state == tasks
  {
    KeepEverything(tasks, OtherThan(id));
  }

  // ---------------------------------------------------------------------
  // editing the list from its own page
  // ---------------------------------------------------------------------

  /**
    `saveEditList()`: an empty trimmed title only sets the inline error; a
    success stores what the server sent, `None` for a 2xx reply without a
    JSON body.
   */
  function SaveEditList(current: Option<TaskList>, listId: string, form: ListForm,
                        reply: Result<Option<TaskList>, string>): (r: Saved<Option<TaskList>>)
    ensures Trim(form.title) == "" ==> r == Saved(TitleRequired, Effect(current, [], []))
    ensures Trim(form.title) != "" ==> r.titleError == "" && |r.effect.sent| == 1
    ensures Trim(form.title) != "" ==>
      r.effect.sent[0] == RequestFor(UpdateList(listId, Trim(form.title), OrUndefined(Trim(form.description))))
    ensures reply.Ok? && Trim(form.title) != "" ==> r.effect.state == reply.value
    ensures Trim(form.title) != "" && reply.Ok? ==> r.effect.toasts == [Toast("List updated!", Success)]
    ensures Trim(form.title) != "" && reply.Err? ==> r.effect.toasts == [Toast(reply.error, Failure)]
    ensures reply.Err? ==> r.effect.state == current
  {
    var title := Trim(form.title);
    if title == "" then Saved(TitleRequired, Effect(current, [], []))
    else
      var request := RequestFor(UpdateList(listId, title, OrUndefined(Trim(form.description))));
      match reply
      case Ok(list) => Saved("", Effect(list, [request], [Toast("List updated!", Success)]))
      case Err(message) => Saved("", Effect(current, [request], [Toast(message, Failure)]))
  }

  /** Editing a list from its tasks page sends the same update the lists page sends for it. */
  lemma EditListSameRequest(current: Option<TaskList>, lists: seq<TaskList>, listId: string, form: ListForm,
                            reply: Result<Option<TaskList>, string>, saved: Result<(), string>, reload: Result<seq<TaskList>, string>)
    requires listId != "" && Trim(form.title) != ""
    ensures SaveEditList(current, listId, form, reply).effect.sent[0]
         == ListsPage.SaveList(lists, Str(listId), form, saved, reload).effect.sent[0]
  {
  }
}

=== FILE: ui.dfy ===
/**
  The shared UI utilities: tag labels, the due-date tag, the modal overlay
  state with its scroll lock, the loading bar and toast records. Markup and
  timers are not modelled; what is kept is the value each helper decides.
 */
module Ui {
  import opened Base
  import opened JsText
  import opened Escaping
  import Api

  // ---------------------------------------------------------------------
  // toasts and the loading bar
  // ---------------------------------------------------------------------

  datatype ToastKind = Success | Failure

  /** A notification `showToast(message, kind)` appends. */
  datatype Toast = Toast(message: string, kind: ToastKind)

  /**
    What an event handler leaves behind: the page state it owns, the requests
    it sent and the toasts it showed, each in order.
   */
  datatype Effect<S> = Effect(state: S, sent: seq<Api.Request>, toasts: seq<Toast>)

  /** The effect of a dialog's save handler, with the text it leaves in the dialog's inline title error. */
  datatype Saved<S> = Saved(titleError: string, effect: Effect<S>)

  /** The values of the title and description inputs of a list dialog. */
  datatype ListForm = ListForm(title: string, description: string)

  /** The `loadingBar` element, when the page has one, with its CSS width. */
  datatype LoadingBar = NoBar | Bar(width: string)

  /** `setLoading(on)`: 75% while a request is in flight, 100% when it ends; no bar, no effect. */
  function SetLoading(bar: LoadingBar, on: bool): (r: LoadingBar)
    ensures r.NoBar? <==> bar.NoBar?
    ensures r.Bar? && on ==> r.width == "75%"
    ensures r.Bar? && !on ==> r.width == "100%"
  {
    if bar.NoBar? then NoBar else Bar(if on then "75%" else "100%")
  }

  /**
    A load between `setLoading(true)` and the `setLoading(false)` of its
    `finally`: the bar while the request is in flight, the load's effect, and
    the bar once the reply is handled, whether it was a success or a failure.
   */
  datatype Loading<S> = Loading(waiting: LoadingBar, effect: Effect<S>, bar: LoadingBar)

  /** A load's effect with the bar moved around it: 75% while waiting, 100% after; a page without the bar keeps none. */
  function AroundLoad<S>(bar: LoadingBar, effect: Effect<S>): (r: Loading<S>)
    ensures r.effect == effect
    ensures bar.Bar? ==> r.waiting == Bar("75%") && r.bar == Bar("100%")
    ensures bar.NoBar? ==> r.waiting == NoBar && r.bar == NoBar
  {
    var waiting := SetLoading(bar, true);
    Loading(waiting, effect, SetLoading(waiting, false))
  }

  // ---------------------------------------------------------------------
  // priority and status tags
  // ---------------------------------------------------------------------

  const PriorityLabels: map<string, string> := map["HIGH" := "High", "MEDIUM" := "Medium", "LOW" := "Low"]
  const StatusLabels: map<string, string> := map["OPEN" := "Open", "COMPLETE" := "Complete"]

  /** `labels[key] || key`: the label when there is a non-empty one, else the key itself. */
  function LabelOr(labels: map<string, string>, key: string): (r: string)
    ensures key in labels && labels[key] != "" ==> r == labels[key]
    ensures key !in labels || labels[key] == "" ==> r == key
    ensures r == "" ==> key == ""
  {
    if key in labels && labels[key] != "" then labels[key] else key
  }

  /** The text of `priorityTag`: HIGH, MEDIUM and LOW get their labels; any other value is shown as it is. */
  function PriorityLabel(priority: string): (r: string)
    ensures priority == "HIGH" ==> r == "High"
    ensures priority == "MEDIUM" ==> r == "Medium"
    ensures priority == "LOW" ==> r == "Low"
    ensures priority != "HIGH" && priority != "MEDIUM" && priority != "LOW" ==> r == priority
  {
    LabelOr(PriorityLabels, priority)
  }

  /** The text of `statusTag`: only OPEN and COMPLETE have labels; CLOSED is shown raw. */
  function StatusLabel(status: string): (r: string)
    ensures status == "OPEN" ==> r == "Open"
    ensures status == "COMPLETE" ==> r == "Complete"
    ensures status != "OPEN" && status != "COMPLETE" ==> r == status
  {
    LabelOr(StatusLabels, status)
  }

  /** A closed task's status tag reads `CLOSED`, and an open one reads `Open`. */
  lemma TaskStatusTags()
    ensures StatusLabel("CLOSED") == "CLOSED"
    ensures StatusLabel("OPEN") == "Open"
  {
  }

  // ---------------------------------------------------------------------
  // due-date tag
  // ---------------------------------------------------------------------

  /** `parts[i]` as a template literal shows it: a missing piece prints as `undefined`. */
  function Piece(parts: seq<string>, i: nat): string {
    if i < |parts| then parts[i] else "undefined"
  }

  /**
    The text of `dateTag`: empty for an absent or empty date; otherwise the
    part before the first `T`, split at `-` into year, month and day and shown
    as `day/month/year`.
   */
  function DateTag(dateStr: JsStr): (r: string)
    ensures r == "" <==> !Truthy(dateStr)
  {
    if !Truthy(dateStr) then ""
    else
      var date := Split(dateStr.s, 'T')[0];
      var ymd := Split(date, '-');
      var r := Piece(ymd, 2) + "/" + Piece(ymd, 1) + "/" + Piece(ymd, 0);
      assert r[|Piece(ymd, 2)|] == '/';
      r
  }

  /** A `year-month-day` date is shown as `day/month/year`. */
  lemma DateTagReorders(y: string, m: string, d: string)
    requires '-' !in y && '-' !in m && '-' !in d
    requires 'T' !in y && 'T' !in m && 'T' !in d
    ensures DateTag(Str(y + "-" + m + "-" + d)) == d + "/" + m + "/" + y
  {
    var s := y + "-" + m + "-" + d;
    JoinThree('-', y, m, d);
    assert 'T' !in s;
    SplitNoSeparator(s, 'T');
    SplitJoin([y, m, d], '-');
  }

  /** The time part of a date-time does not change the tag. */
  lemma DateTagIgnoresTime(date: string, time: string)
    requires date != "" && 'T' !in date
    ensures DateTag(Str(date + "T" + time)) == DateTag(Str(date))
  {
    SplitAfterHead(date, 'T', time);
    SplitNoSeparator(date, 'T');
  }

  /** A due date shows the same tag before and after it is normalised for the server. */
  lemma DateTagOfSentDueDate(dueDate: JsStr)
    ensures DateTag(Api.DueDateForServer(dueDate)) == DateTag(dueDate)
  {
    if Truthy(dueDate) && 'T' !in dueDate.s {
      assert dueDate.s + "T00:00:00" == dueDate.s + "T" + "00:00:00";
      DateTagIgnoresTime(dueDate.s, "00:00:00");
    }
  }

  /** `2024-05-01` and `2024-05-01T10:00:00` display the same date, `01/05/2024`. */
  lemma DateTagExample()
    ensures DateTag(Str("2024-05-01")) == DateTag(Str("2024-05-01T10:00:00")) == "01/05/2024"
  {
    var date := "2024" + "-" + "05" + "-" + "01";
    assert date == "2024-05-01";
    DateTagReorders("2024", "05", "01");
    assert "01" + "/" + "05" + "/" + "2024" == "01/05/2024";
    assert 'T' !in date;
    assert "2024-05-01T10:00:00" == date + "T" + "10:00:00";
    DateTagIgnoresTime(date, "10:00:00");
  }

  // ---------------------------------------------------------------------
  // modal overlays
  // ---------------------------------------------------------------------

  /** The overlays carrying the `open` class, and whether page scrolling is locked. */
  datatype Overlays = Overlays(open: set<string>, scrollLocked: bool)

  /** `openOverlay(id)`. */
  function OpenOverlay(o: Overlays, id: string): (r: Overlays)
    ensures r.open == o.open + {id}
    ensures r.scrollLocked
  {
    Overlays(o.open + {id}, true)
  }

  /** `closeOverlay(id)`: closes that overlay only, and unlocks scrolling even if others stay open. */
  function CloseOverlay(o: Overlays, id: string): (r: Overlays)
    ensures r.open == o.open - {id}
    ensures !r.scrollLocked
  {
    Overlays(o.open - {id}, false)
  }

  /** A click; `target` is the overlay element clicked, when the click landed on an overlay's backdrop. */
  function Click(o: Overlays, target: Option<string>): (r: Overlays)
    ensures target.None? ==> r == o
    ensures target.Some? ==> r == CloseOverlay(o, target.value)
  {
    if target.Some? then Overlays(o.open - {target.value}, false) else o
  }

  /** A key press: Escape closes every open overlay and unlocks scrolling; with none open it does nothing. */
  function KeyDown(o: Overlays, key: string): (r: Overlays)
    ensures key == "Escape" && o.open != {} ==> r.open == {} && !r.scrollLocked
    ensures key != "Escape" || o.open == {} ==> r == o
  {
    if key == "Escape" && o.open != {} then Overlays({}, false) else o
  }

  datatype UiEvent =
    | OpenCall(id: string)
    | CloseCall(id: string)
    | ClickOn(target: Option<string>)
    | Key(key: string)

  function Step(o: Overlays, e: UiEvent): Overlays {
    match e
    case OpenCall(id) => OpenOverlay(o, id)
    case CloseCall(id) => CloseOverlay(o, id)
    case ClickOn(target) => Click(o, target)
    case Key(key) => KeyDown(o, key)
  }

  /** The overlay state after a sequence of events, oldest first. */
  function Run(o: Overlays, events: seq<UiEvent>): Overlays
    decreases |events|
  {
    if |events| == 0 then o else Step(Run(o, events[..|events| - 1]), events[|events| - 1])
  }

  /** The ids some event in `events` opens. */
  function Opened(events: seq<UiEvent>): set<string> {
    set i | 0 <= i < |events| && events[i].OpenCall? :: events[i].id
  }

  /** Only `openOverlay` adds to the open set, and only `openOverlay` locks scrolling. */
  lemma {:induction false} OnlyOpeningOpens(o: Overlays, events: seq<UiEvent>)
    ensures Run(o, events).open <= o.open + Opened(events)
    ensures Run(o, events).scrollLocked ==> o.scrollLocked || Opened(events) != {}
    decreases |events|
  {
    if |events| > 0 {
      var n := |events| - 1;
      OnlyOpeningOpens(o, events[..n]);
      assert Opened(events[..n]) <= Opened(events) by {
        forall x | x in Opened(events[..n]) ensures x in Opened(events) {
          var i :| 0 <= i < n && events[..n][i].OpenCall? && events[..n][i].id == x;
          assert events[i] == events[..n][i];
        }
      }
      if events[n].OpenCall? {
        assert events[n].id in Opened(events);
      }
    }
  }

  /** Whatever happened before, pressing Escape leaves no overlay open. */
  lemma EscapeClosesAll(o: Overlays, events: seq<UiEvent>)
    ensures Run(o, events + [Key("Escape")]).open == {}
  {
    assert (events + [Key("Escape")])[..|events|] == events;
  }

  // ---------------------------------------------------------------------
  // delete dialogs
  // ---------------------------------------------------------------------

  /** The dialog text for a read argument: the name in double quotes, or the same failure. */
  function Quoted(read: LiteralRead): (r: LiteralRead)
    ensures r.ReadsAs? <==> read.ReadsAs?
    ensures r.ReadsAs? ==> r.text == "\"" + read.text + "\""
    ensures !read.ReadsAs? ==> r == read
  {
    if read.ReadsAs? then ReadsAs("\"" + read.text + "\"") else read
  }

  /**
    What a delete dialog shows when a delete button's `onclick` runs
    `openDeleteModal(id, '<name>')` or `openDeleteTaskModal(id, '<name>')`:
    the HTML parser decodes the attribute, the script reads the quoted
    argument, and the dialog shows it in double quotes. `NotOneLiteral`
    when the argument is not one literal: the handler then either fails to
    parse or runs part of the name as script, and the dialog does not show
    the name.
   */
  function DeleteDialogText(name: string): LiteralRead {
    Quoted(ReadScriptLiteral(UnescapeHtml(name)))
  }
}
